=== FILE: README.md ===
# http_get_all in Dafny

A model of `http_get_all`, a recursive web-directory downloader. It is given a root URL and a local destination. It requests the URL and looks at the final URL after redirects. If that URL ends in `/`, the response is a directory listing: `parse_directory` makes a local directory named after the last URL segment and, for an HTML listing only, extracts every `href` value. Each link is requested as `<listing URL>/<link>`, and each response is handled the same way inside the new directory. Any other response is a file: `save_file` streams it to `<directory>/<decoded last segment>`, one 128 KiB chunk at a time, skipping empty chunks.

The model does no I/O. The remote server is a finite tree of responses (`Remote.Response`). Each response carries:

- its final URL,
- its optional `Content-Type`,
- its text and its chunks,
- the response each URL requested while handling it comes back with.

The downloader's effects are written as a log of actions (`Log.Action`): a request, a `makedirs`, an `open(..., 'wb')`, and a `write`. The log is interpreted twice:

- as the set of paths that exist afterwards (`Log.Effect`, with `Log.MkdirsFresh` saying no `makedirs` meets an existing path);
- as the file contents it leaves behind (`Log.Replay`).

A request for a URL that the tree does not serve stands for `requests.get` raising. Nothing in the program catches that exception, so the whole run stops there (`Run.crashed`).

Modules:

- `Strings`: option type and substring search.
- `Paths`: trailing-slash classification, `rstrip('/')`, `basename`, `join`, child URLs.
- `Percent`: `unquote`, with a `quote` partner.
- `Links`: the `href` regular expression as a leftmost, non-overlapping scan.
- `Log`: actions and what they do.
- `Names`: local directory and file names.
- `Remote`: the remote tree.
- `Save`: `save_file` and fixed-size chunking.
- `Traversal`: `parse_directory`, the directory/file dispatch and the entry point.
- `Walk`: both loops written as loops.
- `Rerun`: a second run into the same destination.
- `Scenarios`: end-to-end runs.

Each core function of `main.py` has one Dafny definition (`parse_command_line_arguments` has none; see "Left out"): `save_file` is `Save.SaveFile`, `parse_directory` is `Traversal.ParseDirectory` with its link loop `Traversal.FollowLinks`, the `endswith('/')` choice between the two is `Traversal.Dispatch`, and the entry point after its argument checks is `Traversal.Crawl`. `Walk` writes the two loops as loops and shows them equal to these definitions.

How the program behaves, and the model with it:

- Children are fetched one after another, depth first.
- Nothing catches a failing request, so it ends the whole run (`Run.crashed`).
- Links are not percent-decoded. Only local names are.
- The child URL is the parent's final URL, a slash and the raw link. A listing URL already ends in `/`, so a child of `http://x/data/` is requested as `http://x/data//f.bin`. `Scenarios.MirrorOneFile` states this exact request.

## Model

| member | source | states |
|---|---|---|
| Strings.ContainsIffOccurs | http_get_all/main.py:66 | the substring test used for the content-type gate holds exactly when the needle occurs at some position of the header |
| Paths.RStripSlashes | http_get_all/main.py:58 | `rstrip('/')` gives a prefix of the URL that does not end in a slash, and everything it removed was a slash |
| Paths.SegmentStart | http_get_all/main.py:33 | the last segment starts at the beginning of the string or just after a slash, and has no slash in it |
| Paths.BasenameCharacterized | http_get_all/main.py:58 | `Paths.Basename` (`os.path.basename`) is the slash-free tail of the string after its last slash, and any split into a slash-ended head and a slash-free tail yields that same tail |
| Paths.DirSegmentShape | http_get_all/main.py:58 | the directory segment has no slash, is a suffix of the stripped URL, and is empty exactly when the URL is only slashes |
| Paths.StrippedEmptyIff | http_get_all/main.py:58 | stripping trailing slashes leaves nothing exactly when the URL consists of slashes only |
| Paths.FileSegmentEmptyIff | http_get_all/main.py:33 | a file URL's last segment is empty exactly when the URL is empty or ends in a slash, and it never contains a slash |
| Paths.ChildUrlParts | http_get_all/main.py:71 | the child URL is the parent, one slash, then the link unchanged; it lies strictly below the parent |
| Paths.ChildUrl | http_get_all/main.py:71 | the child URL lies strictly below the parent URL, and it looks like a directory (`Paths.IsDirectoryUrl`, the `endswith('/')` test) exactly when the link is empty or itself ends in `/` |
| Paths.ChildNames | http_get_all/main.py:71-78 | a slash-free link gives a file URL whose last segment is the link; a link `name/` gives a directory URL whose segment is `name` |
| Paths.JoinUnder | http_get_all/main.py:60 | the new directory and the saved file lie strictly inside the directory they are joined to |
| Percent.Unquote | http_get_all/main.py:58 | decoding never lengthens a name and leaves a name without `%` unchanged |
| Percent.UnquoteQuote | http_get_all/main.py:58 | decoding undoes percent-encoding for every name of ASCII characters |
| Percent.UnquoteSpace | http_get_all/main.py:33 | for any two parts without `%`, `<a>%20<b>` decodes to `<a> <b>`, as `a%20b.txt` becomes `a b.txt` |
| Percent.UnquoteFreePrefix | http_get_all/main.py:33 | a leading part without `%` passes through `unquote` unchanged, whatever follows it |
| Percent.UnquoteSlashEscape | http_get_all/main.py:33 | `%2F` decodes to a slash, so `%2F<a>` becomes `/<a>` when `<a>` has no `%` |
| Percent.UnquoteTrailingPercent | http_get_all/main.py:33 | a name `<a>%<x>` with no other `%` and fewer than two characters after the `%` decodes to itself, as `100%` does |
| Percent.UnquoteBadEscape | http_get_all/main.py:33 | a `%` not followed by two hex digits is kept as it is, and decoding continues with the character after it |
| Links.RunEnd | http_get_all/main.py:68 | the value group `[^'" >]+` extends to the first quote, space, `>` or end of text |
| Links.MatchAt | http_get_all/main.py:68 | a match found at a position satisfies the pattern; when none is found, no match starts there |
| Links.MatchesFrom | http_get_all/main.py:68 | every match found satisfies the pattern and starts at or after the scan start, and consecutive matches do not overlap |
| Links.Values | http_get_all/main.py:68 | one link per match, in match order, each being that match's captured group |
| Links.ScanIsLeftmost | http_get_all/main.py:68 | the scan is a leftmost, non-overlapping search: between matches nothing matches, and each search resumes after the previous value |
| Links.ScanStep | http_get_all/main.py:68 | one offset of the scan keeps it leftmost: a match there is taken and the search resumes at its end, otherwise the search moves on one character |
| Links.LeftmostCons | http_get_all/main.py:68 | the first match at or after an offset, with nothing matching before it, heads the leftmost match list from that offset |
| Links.LeftmostIsScan | http_get_all/main.py:68 | any match sequence that is leftmost and non-overlapping is exactly the scan's, so the link list is determined by the text |
| Links.Value | http_get_all/main.py:68 | the captured group of a match is non-empty and contains no quote, space or `>` |
| Links.ExtractLinks | http_get_all/main.py:68 | every link `re.findall` returns is non-empty and contains no quote, space or `>`, and there are no more links than occurrences of `href=` |
| Links.MatchesDisjoint | http_get_all/main.py:68 | any two matches found are disjoint and ordered by position |
| Links.FewerLinksThanHrefs | http_get_all/main.py:68 | a listing yields at most as many links as it has occurrences of `href=` |
| Links.NoHrefWithoutH | http_get_all/main.py:68 | text without the letter `h` contains no `href=` |
| Links.NotHrefAt | http_get_all/main.py:68 | inside a stretch of the listing free of `href=`, no `href=` starts, even one running past the stretch's end, provided the stretch ends where an `href=` starts or at the end of the text |
| Links.NoMatchInSegment | http_get_all/main.py:68 | such a stretch holds no match of the pattern |
| Links.QuotedMatch | http_get_all/main.py:68 | `href="v"` matches with the opening quote skipped and the value ending before the closing quote |
| Links.OneQuotedLink | http_get_all/main.py:68 | a listing with one quoted `href` and no other `href=` yields exactly that link |
| Links.TwoQuotedLinks | http_get_all/main.py:68-69 | a listing with two quoted `href`s and no other `href=` yields both links, in document order |
| Links.ListingExample | http_get_all/main.py:68 | `<a href="sub/">sub</a><a href="file.txt">file</a>` yields `sub/` and `file.txt` |
| Names.DirectoryNameShape | http_get_all/main.py:58 | the local directory name is empty exactly when the URL is only slashes, and is the last segment unchanged when that segment has no `%` |
| Names.FileNameShape | http_get_all/main.py:33 | the local file name is empty exactly when the URL is empty or ends in a slash, and is the last segment unchanged when that segment has no `%` |
| Names.FileNameOfChild | http_get_all/main.py:33 | a link without a slash, fetched without redirect, is saved under the decoded link |
| Names.DecodedFileName | http_get_all/main.py:33 | a link `<a>%20<b>` whose parts hold no `%` or `/`, fetched without redirect, is saved as `<a> <b>` |
| Names.SlashEscapeFileName | http_get_all/main.py:33 | a link `%2F<a>` fetched without redirect is saved under the absolute name `/<a>` |
| Names.DirectoryNameOfChild | http_get_all/main.py:58 | a link `name/`, fetched without redirect, is a directory named after the decoded `name` |
| Remote.Lookup | http_get_all/main.py:73 | a request is answered by the first response served for that URL, no earlier one being for it; when none is served, no response answers it |
| Remote.IsHtmlIff | http_get_all/main.py:66 | a response is HTML exactly when its `Content-Type` contains `text/html`; a missing header counts as empty and is not HTML |
| Save.NonEmpty | http_get_all/main.py:36 | the chunks actually written are never empty and are no more than the chunks streamed |
| Save.NonEmptyMembers | http_get_all/main.py:36 | a chunk is written exactly when it is one of the streamed chunks and is not empty |
| Save.SaveTo | http_get_all/main.py:34-37 | opening a path with `'wb'` and running the chunk loop: one create, then one write per non-empty chunk, in chunk order |
| Save.SaveToContents | http_get_all/main.py:34-37 | afterwards the file holds exactly the concatenated chunks, whatever it held before, and no other file changes |
| Save.SaveFile | http_get_all/main.py:25-37 | `save_file` opens the file at `directory/<decoded name>` first, then makes one write to it per non-empty chunk, in chunk order |
| Save.NonEmptyKeepsBytes | http_get_all/main.py:35-37 | skipping empty chunks loses no byte, and changes nothing when no chunk is empty |
| Save.WriteLoop | http_get_all/main.py:35-37 | one write per non-empty chunk, to the file opened, in chunk order |
| Save.SaveFileShape | http_get_all/main.py:33-37 | `save_file` first creates its file inside the directory, then only writes non-empty chunks to that one file |
| Save.WriteLoopInert | http_get_all/main.py:35-37 | the write loop creates no path and makes no directory |
| Save.ReplayWriteLoop | http_get_all/main.py:35-37 | the write loop appends every chunk to the open file, in order, and leaves other files unchanged |
| Save.SaveFileContents | http_get_all/main.py:33-37 | after `save_file` the file holds exactly the whole body, whatever it held before, and no other file changes |
| Save.ChunksOf | http_get_all/main.py:35 | a 128 KiB streamed body comes in chunks of between 1 and 131072 bytes |
| Save.ChunksOfRoundTrip | http_get_all/main.py:35 | joining the chunks gives back the body, using the fewest chunks of the chunk size that hold it |
| Save.StreamedSave | http_get_all/main.py:33-37 | a streamed body arrives whole on disk, one write per chunk; 300000 bytes take three chunks |
| Traversal.ChildUrlsParts | http_get_all/main.py:69-71 | for each link, in link order, the requested URL is the listing's final URL, one slash, then the link unchanged |
| Traversal.Dispatch | http_get_all/main.py:75-78 | a response whose final URL ends in `/` starts by making its new directory when that is absent; any other never aborts and starts by creating its file |
| Traversal.ParseDirectory | http_get_all/main.py:40-78 | `makedirs` comes first exactly when the new directory is absent; otherwise the run starts with a request or does nothing; a response that is not HTML never aborts and does at most the `makedirs` |
| Traversal.FollowLinks | http_get_all/main.py:69-78 | the link loop does nothing exactly when there are no links, and otherwise starts by requesting the first link's URL into the new directory |
| Traversal.Crawl | http_get_all/main.py:89-97 | the run always starts by requesting the root URL into the destination; a root request that raises ends the run right there |
| Traversal.DispatchPlaced | http_get_all/main.py:75-78 | everything done for a fetched response happens strictly inside the directory it was fetched into |
| Traversal.ParsePlaced | http_get_all/main.py:57-78 | `parse_directory` stays inside its directory: only its new directory, requests into it, and actions strictly inside it |
| Traversal.FollowPlaced | http_get_all/main.py:69-78 | the link loop only issues requests into the new directory and acts strictly inside it |
| Traversal.DispatchEffect | http_get_all/main.py:62-63 | the paths existing after a dispatch are those its log creates; no `makedirs` meets an existing path; an abort ends on a request |
| Traversal.ParseEffect | http_get_all/main.py:60-78 | the new directory is made only when absent, and the same holds for everything below it |
| Traversal.FollowEffect | http_get_all/main.py:69-78 | across the link loop, directories are made only when absent and the path set follows the log |
| Traversal.FollowFetches | http_get_all/main.py:69-73 | the listing requests exactly its child URLs, once each, in link order, or a non-empty prefix of them when a request raises |
| Traversal.ParseMakesOnce | http_get_all/main.py:60-63 | `makedirs` comes first exactly when the directory is absent, is never repeated, and the directory exists afterwards |
| Traversal.ParseRequests | http_get_all/main.py:66-73 | a non-HTML listing requests nothing; an HTML listing requests its links' URLs in order, all of them unless one raises |
| Traversal.ParseDirectoryContract | http_get_all/main.py:57-78 | `makedirs` comes first and only when the directory is absent, and never twice; a non-HTML listing requests nothing; an HTML listing requests exactly its links' URLs in order |
| Traversal.DispatchRoutes | http_get_all/main.py:75-78 | a response whose final URL ends in `/` (`Paths.IsDirectoryUrl`) is parsed as a listing into the new directory; any other is saved as one created file plus writes |
| Traversal.CrawlRoutes | http_get_all/main.py:89-97 | the root URL is requested first into the destination; a root that raises ends the run; otherwise the response is routed by its final URL's trailing slash |
| Log.ReplayTwice | http_get_all/main.py:34-37 | because `open(..., 'wb')` truncates, replaying a log whose every write follows the create of its file a second time, on what the first replay left, leaves every file as the first replay did |
| Rerun.DispatchAgain | http_get_all/main.py:33-78 | dispatching the same response again, on any path set holding what the first dispatch left, repeats the first log minus its `makedirs`, adds no path, and aborts exactly when the first did |
| Rerun.ParseAgain | http_get_all/main.py:60-78 | a second `parse_directory` finds its new directory already there, skips the `makedirs` and otherwise repeats the first run's requests and saves, aborting exactly when the first did |
| Rerun.FollowAgain | http_get_all/main.py:69-78 | the link loop run again after the first repeats the first loop's log minus its `makedirs`, adds no path, and aborts exactly when the first did |
| Rerun.DispatchOpened | http_get_all/main.py:33-37 | every write of a dispatch goes to a file that the same dispatch opened with `'wb'` earlier |
| Rerun.ParseOpened | http_get_all/main.py:60-78 | every write of `parse_directory` follows the `open(..., 'wb')` of its file |
| Rerun.FollowOpened | http_get_all/main.py:69-78 | every write of the link loop follows the `open(..., 'wb')` of its file |
| Rerun.CrawlTwice | http_get_all/main.py:25-97 | running the program a second time with the same URL and destination, against the same remote tree, makes no directory, repeats the first run's requests and writes, ends with the same paths, aborts exactly when the first run did, and leaves every file as the first run left it |
| Walk.WalkLog | http_get_all/main.py:69-78 | the `for` loop, stopping at the first request that raises, produces the same run as the recursive definition |
| Walk.FollowSplit | http_get_all/main.py:69-78 | the links from position `i` on are one loop pass over link `i`, then, unless it raised, the rest of the links |
| Walk.WalkLinks | http_get_all/main.py:69-78 | the `for link in links` loop does exactly what the recursive link traversal does, requesting every child URL in order unless one raises |
| Walk.WriteChunks | http_get_all/main.py:35-37 | the chunk loop writes exactly the non-empty chunks, which together hold every byte of the body |
| Scenarios.ListingDirectoryName | http_get_all/main.py:58 | a listing at `<base><name>/` makes a directory called `name` |
| Scenarios.DotDotListing | http_get_all/main.py:58-60 | a listing at `<base>%2E%2E/` is named `..`, so its directory is `dest/..`: below `dest` as text, the parent of `dest` on disk |
| Scenarios.SlashEscapeName | http_get_all/main.py:33 | a file link `%2F<a>` is saved under the absolute name `/<a>`, which the model joins as `d//<a>`, below `d` as text |
| Scenarios.FollowOneFile | http_get_all/main.py:69-78 | a loop over one link answered by a file: one request, then one save into the listing's directory |
| Scenarios.OneFileTreeFacts | http_get_all/main.py:58-71 | in the one-file tree the listing is HTML, yields its one link, and the file lands at `dest/name/link` |
| Scenarios.OneFileLog | http_get_all/main.py:89-97 | mirroring the one-file tree: the root request, the directory, the child request, then the save, with no abort |
| Scenarios.CrawlListing | http_get_all/main.py:89-95 | a root that is an HTML listing whose directory is absent: the root request, the `makedirs`, then the link loop |
| Scenarios.MirrorOneFile | http_get_all/main.py:33-97 | a 300000-byte file below a listing ends up whole at `dest/name/link` after seven actions, requested with a doubled slash |

## Left out

- Command-line parsing and the destination check with its `sys.exit(1)` (http_get_all/main.py:11-22, 82-87): argument handling. The model starts from a URL and a destination.
- The `Invalid URL.` message for a non-200 root status (http_get_all/main.py:90-91): it only prints, and the run continues. Every status, 404 included, is a `Remote.Response`.
- Real HTTP, redirects, connection errors and charset decoding: the remote tree gives each request's final URL and text. A request that raises is a URL the tree does not serve.
- Real `open`, `write` and `os.makedirs`: they are the `Log.Action`s. Filesystem errors, such as a file where a directory should go or a full disk, are not modelled.
- Traversal.ParseDirectory: each listing reached is a nested call with no depth bound. On a listing that links back to itself or to an ancestor, the program runs until Python's recursion limit raises `RecursionError`, or until `os.makedirs` rejects an over-long path with `OSError`. The model's remote tree is finite, so every traversal ends and that case cannot be expressed.
- Percent.Unquote: exact only for escapes of bytes below 0x80. Python decodes `%XX` sequences as UTF-8 and substitutes U+FFFD for invalid sequences; that decoding is not modelled.
- Paths.Join: always `a + "/" + b`. That is `os.path.join(a, b)` only for a non-empty `a` that does not end in `/` and a `b` that does not start with `/`. When `a` ends in `/`, `os.path.join` adds no slash, and the model writes `a//b`. The rule that an absolute second part replaces the first is not modelled. A decoded `%2F` inside a name adds a path level. A leading one makes the name absolute, so `os.path.join` returns the name alone, outside the directory (`Scenarios.SlashEscapeName`).
- Traversal.DispatchPlaced: "inside the directory" is textual only: the path starts with the directory and a slash. Three cases break it on disk, so the program can write outside the destination. A name `..`, from a literal `../` link or a decoded `%2E%2E` (`Scenarios.DotDotListing`), gives `dest/..`, the parent of `dest`. A decoded leading `%2F` gives an absolute name such as `/etc/x` (`Scenarios.SlashEscapeName`); the program opens `/etc/x`, while the model writes `nd//etc/x`. And `d/x` and `d//x` are different model paths although they name one file, so the `os.path.exists` check (`nd in fs`) compares spellings, not files.
- Traversal.ParsePlaced: the same textual containment as `Traversal.DispatchPlaced`, for the listing's new directory and everything below it; `..` and a leading `%2F` escape it on disk.
- Traversal.FollowPlaced: the same textual containment, for every action of the link loop; `..` and a leading `%2F` escape it on disk.
- Paths.JoinUnder: `Join(d, name)` is below `d` as text for every name, `..` and absolute names included, because the model's join always inserts a slash; `os.path.join` does not.
- Save.ChunksOf: how `iter_content` splits a body depends on the transport. The model assumes fixed-size chunks for `Save.StreamedSave`, while `Save.SaveFileContents` holds for any chunking.

=== FILE: links.dfy ===
/** Link extraction from a listing page: Python's
    `re.findall(r'href=[\'"]?([^\'" >]+)', text)`.

    A match at offset `i` is the literal, case-sensitive `href=`, then an
    optional `'` or `"`, then a greedy run of one or more characters other
    than `'`, `"`, space and `>` (tabs and newlines included). The optional
    quote is greedy too, but when a quote is not followed by a run the engine
    backtracks and tries the quote as the run's first character, which the
    class rejects; so such a position has no match. `findall` scans left to
    right, and after a match resumes at the match's end, so matches never
    overlap; it returns the run (the only group) of each match. */
module Links {
  import opened Strings

  /** The literal every match starts with. */
  const Href: string := "href="

  predicate HrefAt(t: string, i: int) {
    OccursAt(t, Href, i)
  }

  predicate IsQuote(c: char) {
    c == '\'' || c == '"'
  }

  /** The character class `[^'" >]`. */
  predicate InLink(c: char) {
    c != '\'' && c != '"' && c != ' ' && c != '>'
  }

  /** The end of the longest run of link characters starting at `j`. */
  function RunEnd(t: string, j: nat): (e: nat)
    requires j <= |t|
    ensures j <= e <= |t|
    ensures forall k :: j <= k < e ==> InLink(t[k])
    ensures e == |t| || !InLink(t[e])
    decreases |t| - j
  {
    if j < |t| && InLink(t[j]) then RunEnd(t, j + 1) else j
  }

  /** One match: where `href=` starts and where its captured run lies. */
  datatype Match = Match(start: nat, valueStart: nat, valueEnd: nat)

  /** `m` is a match of the pattern in `t`, read off the text alone. */
  predicate IsMatch(t: string, m: Match) {
    && HrefAt(t, m.start)
    && m.valueStart == m.start + |Href|
                       + (if m.start + |Href| < |t| && IsQuote(t[m.start + |Href|]) then 1 else 0)
    && m.valueStart < m.valueEnd <= |t|
    && (forall k :: m.valueStart <= k < m.valueEnd ==> InLink(t[k]))
    && (m.valueEnd == |t| || !InLink(t[m.valueEnd]))
  }

  /** What the regular expression engine finds when it tries offset `i`. */
  function MatchAt(t: string, i: nat): (m: Option<Match>)
    ensures m.Some? ==> m.value.start == i && IsMatch(t, m.value)
    ensures m.None? ==> forall x: Match :: x.start == i ==> !IsMatch(t, x)
  {
    if !HrefAt(t, i) then None
    else
      var j := if i + |Href| < |t| && IsQuote(t[i + |Href|]) then i + |Href| + 1 else i + |Href|;
      var e := RunEnd(t, j);
      if e == j then None else Some(Match(i, j, e))
  }

  /** No match starts anywhere in `[lo, hi)`. */
  predicate NoMatchIn(t: string, lo: nat, hi: nat) {
    forall p: nat :: lo <= p < hi ==> MatchAt(t, p).None?
  }

  /** The reference meaning of `findall` from offset `i`: `ms` is empty and
      nothing matches from `i` on, or its head is the first match at or after
      `i` and its tail is what scanning finds from the head's end. */
  predicate LeftmostScan(t: string, i: nat, ms: seq<Match>)
    decreases |ms|
  {
    if ms == [] then NoMatchIn(t, i, |t|)
    else
      && i <= ms[0].start
      && NoMatchIn(t, i, ms[0].start)
      && MatchAt(t, ms[0].start) == Some(ms[0])
      && LeftmostScan(t, ms[0].valueEnd, ms[1..])
  }

  /** The scan itself, offset by offset. Every match it returns is a genuine
      match at or after `i`, and each starts at or after the previous one's
      end. */
  function MatchesFrom(t: string, i: nat): (ms: seq<Match>)
    requires i <= |t|
    ensures forall k :: 0 <= k < |ms| ==> IsMatch(t, ms[k]) && i <= ms[k].start
    ensures forall k :: 0 <= k < |ms| - 1 ==> ms[k].valueEnd <= ms[k + 1].start
    decreases |t| - i
  {
    if i == |t| then []
    else
      match MatchAt(t, i)
      case Some(m) => [m] + MatchesFrom(t, m.valueEnd)
      case None => MatchesFrom(t, i + 1)
  }

  /** The run a match captures (its only group): a possible link. */
  function Value(t: string, m: Match): (v: string)
    requires IsMatch(t, m)
    ensures IsRun(v)
  {
    var v := t[m.valueStart..m.valueEnd];
    assert forall k :: 0 <= k < |v| ==> v[k] == t[m.valueStart + k];
    v
  }

  /** The captured runs of `ms`, in order. */
  function Values(t: string, ms: seq<Match>): (vs: seq<string>)
    requires forall k :: 0 <= k < |ms| ==> IsMatch(t, ms[k])
    ensures |vs| == |ms|
    ensures forall k :: 0 <= k < |ms| ==> vs[k] == Value(t, ms[k])
  {
    if ms == [] then [] else [Value(t, ms[0])] + Values(t, ms[1..])
  }

  /** The links `parse_directory` follows, in the order `findall` returns
      them: each is non-empty and free of `'`, `"`, space and `>`, and there
      are no more of them than occurrences of `href=`. */
  function ExtractLinks(t: string): (links: seq<string>)
    ensures forall k :: 0 <= k < |links| ==> IsRun(links[k])
    ensures |links| <= HrefCount(t, 0)
  {
    FewerLinksThanHrefs(t, 0);
    Values(t, MatchesFrom(t, 0))
  }

  /** The scan computes exactly the reference meaning of `findall`. */
  lemma {:induction false} ScanIsLeftmost(t: string, i: nat)
    requires i <= |t|
    ensures LeftmostScan(t, i, MatchesFrom(t, i))
    decreases |t| - i
  {
    if i < |t| {
      var next := if MatchAt(t, i).Some? then MatchAt(t, i).value.valueEnd else i + 1;
      ScanIsLeftmost(t, next);
      ScanStep(t, i, next);
    }
  }

  /** One offset of the scan keeps it leftmost. */
  lemma ScanStep(t: string, i: nat, next: nat)
    requires i < |t|
    requires next == if MatchAt(t, i).Some? then MatchAt(t, i).value.valueEnd else i + 1
    requires next <= |t| && LeftmostScan(t, next, MatchesFrom(t, next))
    ensures LeftmostScan(t, i, MatchesFrom(t, i))
  {
    match MatchAt(t, i)
    case Some(m) =>
      LeftmostCons(t, i, m, MatchesFrom(t, next));
    case None =>
      LeftmostSkip(t, i, MatchesFrom(t, next));
  }

  /** The first match at or after `i` heads the leftmost list from `i`. */
  lemma LeftmostCons(t: string, i: nat, m: Match, rest: seq<Match>)
    requires i <= m.start && NoMatchIn(t, i, m.start)
    requires MatchAt(t, m.start) == Some(m) && LeftmostScan(t, m.valueEnd, rest)
    ensures LeftmostScan(t, i, [m] + rest)
  {
    assert ([m] + rest)[1..] == rest;
  }

  /** An offset without a match leaves the leftmost list unchanged. */
  lemma LeftmostSkip(t: string, i: nat, ms: seq<Match>)
    requires MatchAt(t, i).None? && LeftmostScan(t, i + 1, ms)
    ensures LeftmostScan(t, i, ms)
  {
    NoMatchBefore(t, i, if ms == [] then |t| else ms[0].start);
  }

  /** An offset without a match extends a match-free range to its left. */
  lemma NoMatchBefore(t: string, i: nat, hi: nat)
    requires MatchAt(t, i).None? && NoMatchIn(t, i + 1, hi)
    ensures NoMatchIn(t, i, hi)
  {
  }

  /** The reference meaning determines the result: any match list that is
      leftmost from `i` is the one the scan returns. */
  lemma {:induction false} LeftmostIsScan(t: string, i: nat, ms: seq<Match>)
    requires i <= |t|
    requires LeftmostScan(t, i, ms)
    ensures ms == MatchesFrom(t, i)
    decreases |t| - i
  {
    if i == |t| {
    } else if ms == [] {
      assert MatchAt(t, i).None?;
      LeftmostIsScan(t, i + 1, ms);
    } else if ms[0].start == i {
      LeftmostIsScan(t, ms[0].valueEnd, ms[1..]);
    } else {
      assert MatchAt(t, i).None?;
      LeftmostIsScan(t, i + 1, ms);
    }
  }

  /** Matches come out in left-to-right order and never overlap: for any two
      of them, the earlier one's run ends before the later one's `href=`. */
  lemma {:induction false} MatchesDisjoint(t: string, i: nat)
    requires i <= |t|
    ensures var ms := MatchesFrom(t, i);
            forall k, l :: 0 <= k < l < |ms| ==> ms[k].valueEnd <= ms[l].start
    decreases |t| - i
  {
    var ms := MatchesFrom(t, i);
    forall k, l | 0 <= k < l < |ms|
      ensures ms[k].valueEnd <= ms[l].start
    {
      Chain(t, ms, k, l);
    }
  }

  /** Adjacent order extends to any pair. */
  lemma {:induction false} Chain(t: string, ms: seq<Match>, k: nat, l: nat)
    requires forall j :: 0 <= j < |ms| ==> IsMatch(t, ms[j])
    requires forall j :: 0 <= j < |ms| - 1 ==> ms[j].valueEnd <= ms[j + 1].start
    requires k < l < |ms|
    ensures ms[k].valueEnd <= ms[l].start
    decreases l - k
  {
    if k + 1 < l {
      Chain(t, ms, k + 1, l);
      assert IsMatch(t, ms[k + 1]);
    }
  }

  /** The number of offsets at or after `i` where `href=` occurs. */
  function HrefCount(t: string, i: nat): nat
    decreases |t| - i
  {
    if i >= |t| then 0 else (if HrefAt(t, i) then 1 else 0) + HrefCount(t, i + 1)
  }

  lemma {:induction false} HrefCountMonotone(t: string, i: nat, j: nat)
    requires i <= j
    ensures HrefCount(t, j) <= HrefCount(t, i)
    decreases j - i
  {
    if i < j {
      HrefCountMonotone(t, i + 1, j);
    }
  }

  /** There are never more links than `href=` occurrences. */
  lemma {:induction false} FewerLinksThanHrefs(t: string, i: nat)
    requires i <= |t|
    ensures |MatchesFrom(t, i)| <= HrefCount(t, i)
    decreases |t| - i
  {
    if i < |t| {
      match MatchAt(t, i)
      case Some(m) =>
        FewerLinksThanHrefs(t, m.valueEnd);
        HrefCountMonotone(t, i + 1, m.valueEnd);
      case None =>
        FewerLinksThanHrefs(t, i + 1);
    }
  }

  /** `s` has no occurrence of `href=`. */
  predicate NoHref(s: string) {
    forall p :: 0 <= p < |s| ==> !HrefAt(s, p)
  }

  /** Text without the letter `h` has no `href=`. */
  lemma NoHrefWithoutH(s: string)
    requires 'h' !in s
    ensures NoHref(s)
  {
    forall p | 0 <= p < |s|
      ensures !HrefAt(s, p)
    {
      assert s[p] in s;
      if p + |Href| <= |s| {
        assert s[p..p + |Href|][0] == s[p];
      }
    }
  }

  /** An offset of `t[lo..hi]` cannot start `href=` when that text has none
      and is followed by the end of `t` or by `href=`: the literal has no
      border, so an occurrence cannot straddle into the next one. */
  lemma NotHrefAt(t: string, lo: nat, hi: nat, p: nat)
    requires lo <= p < hi <= |t|
    requires NoHref(t[lo..hi])
    requires hi == |t| || HrefAt(t, hi)
    ensures !HrefAt(t, p)
  {
    if p + |Href| <= hi {
      var u := t[lo..hi];
      var w, w' := u[p - lo..p - lo + |Href|], t[p..p + |Href|];
      assert forall k :: 0 <= k < |Href| ==> w[k] == w'[k];
      assert w == w';
      assert !HrefAt(u, p - lo);
    } else if p + |Href| <= |t| {
      assert t[hi] == t[hi..hi + |Href|][0] == 'h';
      assert t[p..p + |Href|][hi - p] == t[hi];
    }
  }

  /** No match starts in a stretch of text without `href=` that is followed
      by the end of the text or by `href=`. */
  lemma NoMatchInSegment(t: string, lo: nat, hi: nat)
    requires lo <= hi <= |t|
    requires NoHref(t[lo..hi])
    requires hi == |t| || HrefAt(t, hi)
    ensures NoMatchIn(t, lo, hi)
  {
    forall p: nat | lo <= p < hi
      ensures MatchAt(t, p).None?
    {
      NotHrefAt(t, lo, hi, p);
    }
  }

  /** `v` is a possible link: non-empty and made of link characters. */
  predicate IsRun(v: string) {
    |v| > 0 && forall k :: 0 <= k < |v| ==> InLink(v[k])
  }

  /** A double-quoted run right after `href=` at `i` is the match at `i`. */
  lemma QuotedMatch(t: string, i: nat, v: string)
    requires i + |Href| + 1 + |v| < |t|
    requires t[i..i + |Href|] == Href && t[i + |Href|] == '"'
    requires t[i + |Href| + 1..i + |Href| + 1 + |v|] == v && IsRun(v)
    requires !InLink(t[i + |Href| + 1 + |v|])
    ensures MatchAt(t, i) == Some(Match(i, i + |Href| + 1, i + |Href| + 1 + |v|))
    ensures Value(t, MatchAt(t, i).value) == v
  {
    var j := i + |Href| + 1;
    assert forall k :: j <= k < j + |v| ==> t[k] == v[k - j];
    assert RunEnd(t, j) == j + |v|;
  }

  /** One listing entry: text, `href="`, the link, and text that starts with
      the closing quote. */
  function Entry(before: string, link: string, after: string): string {
    before + Href + "\"" + link + after
  }

  /** A listing with one double-quoted link, whose surrounding text has no
      other `href=`, yields exactly that link. */
  lemma OneQuotedLink(t: string, a0: string, v0: string, c0: string)
    requires t == Entry(a0, v0, c0)
    requires NoHref(a0) && NoHref(c0)
    requires IsRun(v0)
    requires |c0| > 0 && c0[0] == '"'
    ensures ExtractLinks(t) == [v0]
  {
    var s0 := |a0|;
    var e0 := s0 + |Href| + 1 + |v0|;
    assert t[..s0] == a0;
    assert t[s0..s0 + |Href|] == Href;
    assert t[s0 + |Href|] == '"';
    assert t[s0 + |Href| + 1..e0] == v0;
    assert t[e0..] == c0;
    QuotedMatch(t, s0, v0);
    var ms := [MatchAt(t, s0).value];
    assert t[0..s0] == a0 && t[e0..|t|] == c0;
    NoMatchInSegment(t, 0, s0);
    NoMatchInSegment(t, e0, |t|);
    assert LeftmostScan(t, e0, []);
    assert LeftmostScan(t, 0, ms);
    LeftmostIsScan(t, 0, ms);
  }

  /** A listing with two double-quoted links, whose surrounding text has no
      other `href=`, yields exactly those two links, in order. */
  lemma {:induction false} TwoQuotedLinks(t: string, a0: string, v0: string, c0: string, a1: string, v1: string, c1: string)
    requires t == Entry(a0, v0, c0) + Entry(a1, v1, c1)
    requires NoHref(a0) && NoHref(c0 + a1) && NoHref(c1)
    requires IsRun(v0) && IsRun(v1)
    requires |c0| > 0 && c0[0] == '"' && |c1| > 0 && c1[0] == '"'
    ensures ExtractLinks(t) == [v0, v1]
  {
    var s0 := |a0|;
    var e0 := s0 + |Href| + 1 + |v0|;
    var s1 := e0 + |c0| + |a1|;
    var e1 := s1 + |Href| + 1 + |v1|;
    assert t[..s0] == a0;
    assert t[s0..s0 + |Href|] == Href;
    assert t[s0 + |Href|] == '"';
    assert t[s0 + |Href| + 1..e0] == v0;
    assert t[e0..s1] == c0 + a1;
    assert t[s1..s1 + |Href|] == Href;
    assert t[s1 + |Href|] == '"';
    assert t[s1 + |Href| + 1..e1] == v1;
    assert t[e1..] == c1;
    QuotedMatch(t, s0, v0);
    QuotedMatch(t, s1, v1);
    var ms := [MatchAt(t, s0).value, MatchAt(t, s1).value];
    assert t[0..s0] == a0 && t[e1..|t|] == c1;
    NoMatchInSegment(t, 0, s0);
    NoMatchInSegment(t, e0, s1);
    NoMatchInSegment(t, e1, |t|);
    assert LeftmostScan(t, e1, []);
    LeftmostCons(t, e0, ms[1], []);
    LeftmostCons(t, 0, ms[0], [ms[1]] + []);
    assert [ms[0]] + ([ms[1]] + []) == ms;
    LeftmostIsScan(t, 0, ms);
  }

  /** The two-entry listing `<a href="sub/">sub</a><a href="file.txt">file</a>`
      yields `sub/` then `file.txt`. */
  lemma ListingExample(listing: string)
    requires listing == "<a href=\"sub/\">sub</a><a href=\"file.txt\">file</a>"
    ensures ExtractLinks(listing) == ["sub/", "file.txt"]
  {
    ListingEntries(listing);
    NoHrefWithoutH("<a ");
    NoHrefWithoutH("\">sub</a>" + "<a ");
    NoHrefWithoutH("\">file</a>");
    TwoQuotedLinks(listing, "<a ", "sub/", "\">sub</a>", "<a ", "file.txt", "\">file</a>");
  }

  /** The example listing read as two entries. */
  lemma ListingEntries(listing: string)
    requires listing == "<a href=\"sub/\">sub</a><a href=\"file.txt\">file</a>"
    ensures listing == Entry("<a ", "sub/", "\">sub</a>") + Entry("<a ", "file.txt", "\">file</a>")
  {
    ListingHalves(listing);
    EntryLiterals();
  }

  lemma ListingHalves(listing: string)
    requires listing == "<a href=\"sub/\">sub</a><a href=\"file.txt\">file</a>"
    ensures listing == "<a href=\"sub/\">sub</a>" + "<a href=\"file.txt\">file</a>"
  {
  }

  lemma EntryLiterals()
    ensures "<a href=\"sub/\">sub</a>" == Entry("<a ", "sub/", "\">sub</a>")
    ensures "<a href=\"file.txt\">file</a>" == Entry("<a ", "file.txt", "\">file</a>")
  {
  }
}

=== FILE: log.dfy ===
/** The downloader's observable effects, as a log of actions, and what a log
    does to the local filesystem: which paths exist afterwards, whether every
    directory it creates was absent when created, and what each file holds. */
module Log {
  import opened Paths

  newtype byte = b: int | 0 <= b < 256

  type Bytes = seq<byte>

  datatype Action =
    /** `os.makedirs(path)`. */
    | Mkdir(path: string)
    /** `requests.get(url)`, whose response is placed in local directory `into`. */
    | Fetch(url: string, into: string)
    /** `open(path, 'wb')`: creates the file, or truncates it. */
    | Create(path: string)
    /** `file.write(data)` on the file opened at `path`. */
    | Write(path: string, data: Bytes)

  /** The local path an action touches; for a fetch, where its result goes. */
  function Place(a: Action): string {
    match a
    case Mkdir(p) => p
    case Fetch(_, into) => into
    case Create(p) => p
    case Write(p, _) => p
  }

  /** Every action of `log` touches something strictly inside `d`. */
  predicate AllUnder(log: seq<Action>, d: string) {
    forall k :: 0 <= k < |log| ==> Under(Place(log[k]), d)
  }

  /** The paths that exist after `log` runs from the paths `fs`. */
  function Effect(fs: set<string>, log: seq<Action>): set<string>
    decreases |log|
  {
    if log == [] then fs
    else
      var fs' := match log[0]
        case Mkdir(p) => fs + {p}
        case Create(p) => fs + {p}
        case _ => fs;
      Effect(fs', log[1..])
  }

  /** Every `Mkdir` of `log` is of a path that does not exist at that moment,
      so `os.makedirs` never meets an existing directory. */
  predicate MkdirsFresh(fs: set<string>, log: seq<Action>)
    decreases |log|
  {
    if log == [] then true
    else match log[0]
      case Mkdir(p) => p !in fs && MkdirsFresh(fs + {p}, log[1..])
      case Create(p) => MkdirsFresh(fs + {p}, log[1..])
      case _ => MkdirsFresh(fs, log[1..])
  }

  /** Running two logs one after the other. */
  lemma {:induction false} EffectAppend(fs: set<string>, a: seq<Action>, b: seq<Action>)
    ensures Effect(fs, a + b) == Effect(Effect(fs, a), b)
    ensures MkdirsFresh(fs, a + b) <==> MkdirsFresh(fs, a) && MkdirsFresh(Effect(fs, a), b)
    decreases |a|
  {
    if a != [] {
      assert (a + b)[0] == a[0];
      assert (a + b)[1..] == a[1..] + b;
      var fs' := match a[0]
        case Mkdir(p) => fs + {p}
        case Create(p) => fs + {p}
        case _ => fs;
      EffectAppend(fs', a[1..], b);
    } else {
      assert a + b == b;
    }
  }

  /** A log only ever adds paths. */
  lemma {:induction false} EffectGrows(fs: set<string>, log: seq<Action>)
    ensures fs <= Effect(fs, log)
    decreases |log|
  {
    if log != [] {
      var fs' := match log[0]
        case Mkdir(p) => fs + {p}
        case Create(p) => fs + {p}
        case _ => fs;
      EffectGrows(fs', log[1..]);
    }
  }

  /** The file contents after `log`: `Create` empties a file, `Write` appends
      to it; a write to a file never opened changes nothing. */
  function Replay(files: map<string, Bytes>, log: seq<Action>): map<string, Bytes>
    decreases |log|
  {
    if log == [] then files
    else
      var files' := match log[0]
        case Create(p) => files[p := []]
        case Write(p, data) => if p in files then files[p := files[p] + data] else files
        case _ => files;
      Replay(files', log[1..])
  }

  /** Requests and new directories leave file contents alone. */
  lemma {:induction false} ReplaySkipsInert(files: map<string, Bytes>, a: seq<Action>, b: seq<Action>)
    requires forall k :: 0 <= k < |a| ==> a[k].Fetch? || a[k].Mkdir?
    ensures Replay(files, a + b) == Replay(files, b)
    decreases |a|
  {
    if a == [] {
      assert a + b == b;
    } else {
      assert (a + b)[1..] == a[1..] + b;
      ReplaySkipsInert(files, a[1..], b);
    }
  }

  /** The fetches of `log` whose results go into `d`, in order: the requests
      one listing in `d` issues itself. */
  function FetchesInto(log: seq<Action>, d: string): (urls: seq<string>)
    ensures |urls| <= |log|
    decreases |log|
  {
    if log == [] then []
    else
      (if log[0].Fetch? && log[0].into == d then [log[0].url] else [])
      + FetchesInto(log[1..], d)
  }

  lemma {:induction false} FetchesIntoAppend(a: seq<Action>, b: seq<Action>, d: string)
    ensures FetchesInto(a + b, d) == FetchesInto(a, d) + FetchesInto(b, d)
    decreases |a|
  {
    if a == [] {
      assert a + b == b;
    } else {
      assert (a + b)[1..] == a[1..] + b;
      FetchesIntoAppend(a[1..], b, d);
    }
  }

  /** Actions strictly inside `d` include no fetch into `d` itself. */
  lemma {:induction false} NoFetchesIntoAbove(log: seq<Action>, d: string)
    requires AllUnder(log, d)
    ensures FetchesInto(log, d) == []
    decreases |log|
  {
    if log != [] {
      assert Under(Place(log[0]), d);
      NoFetchesIntoAbove(log[1..], d);
    }
  }

  /** `log` with its `makedirs` calls dropped: what a rerun does when every
      directory is already there. */
  function WithoutMkdirs(log: seq<Action>): (r: seq<Action>)
    ensures forall k :: 0 <= k < |r| ==> !r[k].Mkdir?
    ensures (forall k :: 0 <= k < |log| ==> !log[k].Mkdir?) ==> r == log
    decreases |log|
  {
    if log == [] then []
    else if log[0].Mkdir? then WithoutMkdirs(log[1..])
    else [log[0]] + WithoutMkdirs(log[1..])
  }

  lemma {:induction false} WithoutMkdirsAppend(a: seq<Action>, b: seq<Action>)
    ensures WithoutMkdirs(a + b) == WithoutMkdirs(a) + WithoutMkdirs(b)
    decreases |a|
  {
    if a == [] {
      assert a + b == b;
    } else {
      assert (a + b)[0] == a[0];
      assert (a + b)[1..] == a[1..] + b;
      WithoutMkdirsAppend(a[1..], b);
    }
  }

  /** A new directory leaves file contents alone, so dropping them changes
      no replay. */
  lemma {:induction false} ReplayWithoutMkdirs(files: map<string, Bytes>, log: seq<Action>)
    ensures Replay(files, WithoutMkdirs(log)) == Replay(files, log)
    decreases |log|
  {
    if log != [] {
      ReplayWithoutMkdirs(files, log[1..]);
      if !log[0].Mkdir? {
        var w := [log[0]] + WithoutMkdirs(log[1..]);
        assert w[0] == log[0] && w[1..] == WithoutMkdirs(log[1..]);
        match log[0]
        case Create(p) =>
          ReplayWithoutMkdirs(files[p := []], log[1..]);
        case Write(p, data) =>
          if p in files {
            ReplayWithoutMkdirs(files[p := files[p] + data], log[1..]);
          }
        case Fetch(_, _) =>
      }
    }
  }

  /** Every write to a file comes after an action that created that file:
      `save_file` writes only through the handle its `open` returned. */
  predicate WritesOpened(log: seq<Action>) {
    forall k :: 0 <= k < |log| && log[k].Write? ==>
      exists j :: 0 <= j < k && log[j] == Create(log[k].path)
  }

  lemma WritesOpenedAppend(a: seq<Action>, b: seq<Action>)
    requires WritesOpened(a) && WritesOpened(b)
    ensures WritesOpened(a + b)
  {
    forall k | 0 <= k < |a + b| && (a + b)[k].Write?
      ensures exists j :: 0 <= j < k && (a + b)[j] == Create((a + b)[k].path)
    {
      if k < |a| {
        var j :| 0 <= j < k && a[j] == Create(a[k].path);
        assert (a + b)[j] == a[j];
      } else {
        assert (a + b)[k] == b[k - |a|];
        var j :| 0 <= j < k - |a| && b[j] == Create(b[k - |a|].path);
        assert (a + b)[j + |a|] == b[j];
      }
    }
  }

  /** The paths `log` creates. */
  function Created(log: seq<Action>): (u: set<string>)
    ensures forall k :: 0 <= k < |log| && log[k].Create? ==> log[k].path in u
  {
    set k | 0 <= k < |log| && log[k].Create? :: log[k].path
  }

  /** `p` is created somewhere in `log`, and before every write to it. */
  predicate CreatedFirst(log: seq<Action>, p: string) {
    && (exists j :: 0 <= j < |log| && log[j] == Create(p))
    && (forall k :: 0 <= k < |log| && log[k].Write? && log[k].path == p ==>
          exists j :: 0 <= j < k && log[j] == Create(p))
  }

  lemma CreatedFirstTail(log: seq<Action>, p: string)
    requires CreatedFirst(log, p) && log[0] != Create(p)
    ensures CreatedFirst(log[1..], p)
  {
    var j :| 0 <= j < |log| && log[j] == Create(p);
    assert log[1..][j - 1] == log[j];
    forall k | 0 <= k < |log[1..]| && log[1..][k].Write? && log[1..][k].path == p
      ensures exists i :: 0 <= i < k && log[1..][i] == Create(p)
    {
      assert log[k + 1] == log[1..][k];
      var i :| 0 <= i < k + 1 && log[i] == Create(p);
      assert log[1..][i - 1] == log[i];
    }
  }

  /** The first action of a log that creates `p` before writing it is no
      write to `p`. */
  lemma CreatedFirstHead(log: seq<Action>, p: string)
    requires log != []
    ensures CreatedFirst(log, p) ==> !(log[0].Write? && log[0].path == p)
  {
  }

  /** Two file maps that agree outside `u` replay alike through a log that
      creates every path of `u` before writing it. */
  lemma {:induction false} ReplayAgree(f1: map<string, Bytes>, f2: map<string, Bytes>, log: seq<Action>, u: set<string>)
    requires forall p :: p !in u ==> (p in f1 <==> p in f2) && (p in f1 ==> f1[p] == f2[p])
    requires forall p :: p in u ==> CreatedFirst(log, p)
    ensures Replay(f1, log) == Replay(f2, log)
    decreases |log|
  {
    if log == [] {
      assert u == {};
      assert f1 == f2;
    } else {
      forall q | q in u && log[0] != Create(q) ensures CreatedFirst(log[1..], q) {
        CreatedFirstTail(log, q);
      }
      match log[0]
      case Create(p) =>
        ReplayAgree(f1[p := []], f2[p := []], log[1..], u - {p});
      case Write(p, data) =>
        CreatedFirstHead(log, p);
        var g1 := if p in f1 then f1[p := f1[p] + data] else f1;
        var g2 := if p in f2 then f2[p := f2[p] + data] else f2;
        ReplayAgree(g1, g2, log[1..], u);
      case Mkdir(_) =>
        ReplayAgree(f1, f2, log[1..], u);
      case Fetch(_, _) =>
        ReplayAgree(f1, f2, log[1..], u);
    }
  }

  /** A path `log` neither creates nor writes keeps its presence and
      contents through a replay. */
  lemma {:induction false} ReplayUntouched(files: map<string, Bytes>, log: seq<Action>, p: string)
    requires forall k :: 0 <= k < |log| ==> Place(log[k]) != p || log[k].Mkdir? || log[k].Fetch?
    ensures p in Replay(files, log) <==> p in files
    ensures p in files ==> Replay(files, log)[p] == files[p]
    decreases |log|
  {
    if log != [] {
      assert Place(log[0]) != p || log[0].Mkdir? || log[0].Fetch?;
      match log[0]
      case Create(q) =>
        ReplayUntouched(files[q := []], log[1..], p);
      case Write(q, data) =>
        ReplayUntouched(if q in files then files[q := files[q] + data] else files, log[1..], p);
      case Mkdir(_) =>
        ReplayUntouched(files, log[1..], p);
      case Fetch(_, _) =>
        ReplayUntouched(files, log[1..], p);
    }
  }

  /** Replaying a log whose writes all follow a create a second time, on
      what the first replay left, changes nothing: every file it touches is
      truncated before it is written again. */
  lemma ReplayTwice(files: map<string, Bytes>, log: seq<Action>)
    requires WritesOpened(log)
    ensures Replay(Replay(files, log), log) == Replay(files, log)
  {
    var once := Replay(files, log);
    var u := Created(log);
    forall p | p !in u
      ensures (p in files <==> p in once) && (p in files ==> files[p] == once[p])
    {
      forall k | 0 <= k < |log| ensures Place(log[k]) != p || log[k].Mkdir? || log[k].Fetch? {
      }
      ReplayUntouched(files, log, p);
    }
    forall p | p in u ensures CreatedFirst(log, p) {
      var j :| 0 <= j < |log| && log[j].Create? && log[j].path == p;
      assert log[j] == Create(p);
    }
    ReplayAgree(files, once, log, u);
  }
}

=== FILE: names.dfy ===
/** The local names the downloader gives to what it fetches: a directory is
    named `unquote(basename(url.rstrip('/')))`, a file `unquote(basename(url))`
    (http_get_all/main.py lines 58 and 33). */
module Names {
  import opened Strings
  import opened Paths
  import opened Percent

  /** The name `parse_directory` gives its new directory. */
  function DirectoryName(url: string): string {
    Unquote(DirSegment(url))
  }

  /** The name `save_file` gives its file. */
  function FileName(url: string): string {
    Unquote(FileSegment(url))
  }

  /** The directory name is empty only for a URL made of slashes, and is the
      last segment itself when that has no `%`. */
  lemma DirectoryNameShape(url: string)
    ensures DirectoryName(url) == [] <==> forall k :: 0 <= k < |url| ==> url[k] == '/'
    ensures Free(DirSegment(url), '%') ==> DirectoryName(url) == DirSegment(url)
  {
    DirSegmentShape(url);
  }

  /** The file name is empty exactly for the URLs that are never saved as
      files, and is the last segment itself when that has no `%`. */
  lemma FileNameShape(url: string)
    ensures FileName(url) == [] <==> url == [] || IsDirectoryUrl(url)
    ensures Free(FileSegment(url), '%') ==> FileName(url) == FileSegment(url)
  {
    FileSegmentEmptyIff(url);
  }

  /** A link fetched without a redirect names its local file after the link
      itself, decoded: `a%20b.txt` becomes `a b.txt`. */
  lemma FileNameOfChild(parent: string, link: string)
    requires Free(link, '/')
    ensures FileName(ChildUrl(parent, link)) == Unquote(link)
  {
    ChildNames(parent, link);
  }

  /** A link `<a>%20<b>`, such as `a%20b.txt`, is saved as `<a> <b>`. */
  lemma DecodedFileName(parent: string, a: string, b: string)
    requires Free(a, '%') && Free(b, '%') && Free(a, '/') && Free(b, '/')
    ensures FileName(ChildUrl(parent, a + "%20" + b)) == a + " " + b
  {
    var link := a + "%20" + b;
    assert Free(link, '/') by {
      forall k | 0 <= k < |link|
        ensures link[k] != '/'
      {
        if k >= |a| + 3 {
          assert link[k] == b[k - |a| - 3];
        } else if k < |a| {
          assert link[k] == a[k];
        }
      }
    }
    FileNameOfChild(parent, link);
    UnquoteSpace(a, b);
  }

  /** A link `%2F<a>` is saved under the absolute name `/<a>`. */
  lemma SlashEscapeFileName(parent: string, a: string)
    requires Free(a, '%') && Free(a, '/')
    ensures FileName(ChildUrl(parent, "%2F" + a)) == "/" + a
  {
    var link := "%2F" + a;
    assert Free(link, '/') by {
      forall k | 0 <= k < |link|
        ensures link[k] != '/'
      {
        if k >= 3 {
          assert link[k] == a[k - 3];
        }
      }
    }
    FileNameOfChild(parent, link);
    UnquoteSlashEscape(a);
  }

  /** A link `name/` fetched without a redirect is a directory named after
      `name`, decoded. */
  lemma DirectoryNameOfChild(parent: string, link: string)
    requires |link| > 1 && EndsWith(link, '/') && Free(link[..|link| - 1], '/')
    ensures IsDirectoryUrl(ChildUrl(parent, link))
    ensures DirectoryName(ChildUrl(parent, link)) == Unquote(link[..|link| - 1])
  {
    ChildNames(parent, link);
  }
}

=== FILE: paths.dfy ===
/** How the downloader reads URLs and builds local paths: the trailing-slash
    classification, `rstrip('/')`, `os.path.basename`, `os.path.join`, and
    the child URL built by plain concatenation.

    Local paths are compared as text: `d/x` and `d//x` are different paths
    here although they name one file, and a name `..` is a path inside `d`
    here although it names the parent of `d`. */
module Paths {
  import opened Strings

  /** A response whose final URL ends in `/` is a directory listing; anything
      else, the empty URL included, is a file. */
  predicate IsDirectoryUrl(url: string) {
    EndsWith(url, '/')
  }

  /** Python's `s.rstrip('/')`: drop every trailing slash and nothing else. */
  function RStripSlashes(s: string): (r: string)
    ensures !EndsWith(r, '/')
    ensures IsPrefix(r, s)
    ensures forall k :: |r| <= k < |s| ==> s[k] == '/'
    decreases |s|
  {
    if EndsWith(s, '/') then RStripSlashes(s[..|s| - 1]) else s
  }

  /** The index just after the last `/` of `s`, or 0 when `s` has none
      (`s.rfind('/') + 1` in `posixpath.basename`). */
  function SegmentStart(s: string): (i: nat)
    ensures i <= |s|
    ensures i == 0 || s[i - 1] == '/'
    ensures forall k :: i <= k < |s| ==> s[k] != '/'
    decreases |s|
  {
    if |s| == 0 then 0
    else if s[|s| - 1] == '/' then |s|
    else SegmentStart(s[..|s| - 1])
  }

  /** `os.path.basename(s)`: the text after the last `/`. It is a slash-free
      suffix of `s` that is all of `s` or follows a slash. */
  function Basename(s: string): (r: string)
  {
    s[SegmentStart(s)..]
  }

  /** The segment `parse_directory` names its local directory after, before
      percent-decoding: `basename(url.rstrip('/'))`. */
  function DirSegment(url: string): string {
    Basename(RStripSlashes(url))
  }

  /** The segment `save_file` names its local file after, before
      percent-decoding: `basename(url)`. */
  function FileSegment(url: string): string {
    Basename(url)
  }

  /** `os.path.join(a, b)` as it behaves for a non-empty `a` that does not
      end in `/` and a `b` that does not start with `/`. */
  function Join(a: string, b: string): string {
    a + "/" + b
  }

  /** The URL `parse_directory` requests for a link: `f"{url}/{link}"`. It
      lies below the parent, and whether the request looks like a directory
      is decided by the link alone. */
  function ChildUrl(parent: string, link: string): (u: string)
    ensures Under(u, parent)
    ensures IsDirectoryUrl(u) <==> link == [] || IsDirectoryUrl(link)
  {
    var u := parent + "/" + link;
    assert u[..|parent| + 1] == parent + "/";
    assert link != [] ==> u[|u| - 1] == link[|link| - 1];
    u
  }

  /** `p` lies strictly inside directory `d`: it is `d`, a slash, and a rest. */
  predicate Under(p: string, d: string) {
    |p| > |d| && p[..|d| + 1] == d + "/"
  }

  /** The basename splits `s` into a head that is empty or ends in `/` and a
      tail free of `/`; and any such split has that tail as its basename. */
  lemma BasenameCharacterized(s: string, head: string, tail: string)
    ensures Free(Basename(s), '/')
    ensures s == s[..|s| - |Basename(s)|] + Basename(s)
    ensures |s| - |Basename(s)| == 0 || s[|s| - |Basename(s)| - 1] == '/'
    ensures s == head + tail && Free(tail, '/') && (head == [] || EndsWith(head, '/'))
            ==> Basename(s) == tail
  {
    var i := SegmentStart(s);
    assert s == s[..i] + s[i..];
    if s == head + tail && Free(tail, '/') && (head == [] || EndsWith(head, '/')) {
      if head != [] {
        assert s[|head| - 1] == head[|head| - 1];
      }
      assert forall k :: |head| <= k < |s| ==> s[k] == tail[k - |head|];
    }
  }

  /** The directory segment never contains a slash, is a suffix of the
      stripped URL, and is empty exactly when the URL is all slashes. */
  lemma DirSegmentShape(url: string)
    ensures Free(DirSegment(url), '/')
    ensures DirSegment(url) == [] <==> forall k :: 0 <= k < |url| ==> url[k] == '/'
    ensures var r := RStripSlashes(url);
            r == r[..|r| - |DirSegment(url)|] + DirSegment(url)
  {
    var r := RStripSlashes(url);
    BasenameCharacterized(r, [], []);
    StrippedEmptyIff(url);
  }

  /** Stripping trailing slashes leaves nothing exactly when every character
      is a slash. */
  lemma StrippedEmptyIff(url: string)
    ensures RStripSlashes(url) == [] <==> forall k :: 0 <= k < |url| ==> url[k] == '/'
  {
  }

  /** The file segment is empty exactly when the URL is empty or ends in a
      slash, i.e. exactly when the URL would not be dispatched to a file. */
  lemma FileSegmentEmptyIff(url: string)
    ensures FileSegment(url) == [] <==> url == [] || IsDirectoryUrl(url)
    ensures Free(FileSegment(url), '/')
  {
    BasenameCharacterized(url, [], []);
  }

  /** A child URL begins with its parent, then one slash, then ends with the
      link; so the parent and the link can be read back from it. */
  lemma ChildUrlParts(parent: string, link: string)
    ensures var u := ChildUrl(parent, link);
            |u| == |parent| + 1 + |link|
            && IsPrefix(parent, u)
            && u[|parent|] == '/'
            && u[|parent| + 1..] == link
            && Under(u, parent)
  {
    var u := ChildUrl(parent, link);
    assert u[..|parent|] == parent;
    assert u[..|parent| + 1] == parent + "/";
  }

  /** Fetched without a redirect, a slash-free link names its own file, and a
      link `name/` names its own directory. */
  lemma ChildNames(parent: string, link: string)
    ensures Free(link, '/') ==> FileSegment(ChildUrl(parent, link)) == link
    ensures |link| > 1 && Free(link[..|link| - 1], '/') && EndsWith(link, '/')
            ==> IsDirectoryUrl(ChildUrl(parent, link))
                && DirSegment(ChildUrl(parent, link)) == link[..|link| - 1]
  {
    var u := ChildUrl(parent, link);
    if Free(link, '/') {
      BasenameCharacterized(u, parent + "/", link);
    }
    if |link| > 1 && Free(link[..|link| - 1], '/') && EndsWith(link, '/') {
      var name := link[..|link| - 1];
      var v := parent + "/" + name;
      assert u == v + "/";
      assert RStripSlashes(u) == RStripSlashes(v);
      BasenameCharacterized(v, parent + "/", name);
    }
  }

  /** Being inside a directory is transitive. */
  lemma UnderTrans(p: string, q: string, d: string)
    requires Under(p, q) && Under(q, d)
    ensures Under(p, d)
  {
    assert p[..|d| + 1] == p[..|q| + 1][..|d| + 1];
  }

  /** A joined path lies inside its directory. */
  lemma JoinUnder(d: string, name: string)
    ensures Under(Join(d, name), d)
  {
    assert Join(d, name)[..|d| + 1] == d + "/";
  }
}

=== FILE: percent.dfy ===
/** Percent-decoding as `urllib.parse.unquote` does it (section 2.1 of
    RFC 3986): every `%` followed by two hexadecimal digits, in either case,
    becomes the octet they spell; a `%` not followed by two hexadecimal
    digits stays literal. A decoded octet is represented by the character
    with that code, which is what Python produces for octets below 0x80;
    above that Python decodes UTF-8, which is not modelled. */
module Percent {
  import opened Strings

  predicate IsHexDigit(c: char) {
    ('0' <= c <= '9') || ('A' <= c <= 'F') || ('a' <= c <= 'f')
  }

  function HexValue(c: char): (v: nat)
    requires IsHexDigit(c)
    ensures v < 16
  {
    if '0' <= c <= '9' then c as nat - '0' as nat
    else if 'A' <= c <= 'F' then c as nat - 'A' as nat + 10
    else c as nat - 'a' as nat + 10
  }

  /** The upper-case digit for `v`; `HexValue` reads it back. */
  function HexDigit(v: nat): (c: char)
    requires v < 16
    ensures IsHexDigit(c) && HexValue(c) == v
  {
    if v < 10 then ('0' as nat + v) as char else ('A' as nat + v - 10) as char
  }

  /** A well-formed escape `%XX` starts at the front of `s`. */
  predicate EscapeAtFront(s: string) {
    |s| >= 3 && s[0] == '%' && IsHexDigit(s[1]) && IsHexDigit(s[2])
  }

  /** `urllib.parse.unquote(s)`, scanning left to right. A string without
      `%` comes back unchanged, decoding never lengthens a string, and only
      the empty string decodes to the empty string. */
  function Unquote(s: string): (r: string)
    ensures |r| <= |s|
    ensures r == [] <==> s == []
    ensures Free(s, '%') ==> r == s
    decreases |s|
  {
    if |s| == 0 then []
    else if EscapeAtFront(s) then
      [(16 * HexValue(s[1]) + HexValue(s[2])) as char] + Unquote(s[3..])
    else [s[0]] + Unquote(s[1..])
  }

  /** Characters that percent-encoding leaves alone (section 2.3 of RFC 3986). */
  predicate Unreserved(c: char) {
    ('A' <= c <= 'Z') || ('a' <= c <= 'z') || ('0' <= c <= '9')
    || c == '-' || c == '.' || c == '_' || c == '~'
  }

  /** Every character of `s` is ASCII, so its escape is one octet below
      0x80, which Python decodes to that same character. */
  predicate IsAscii(s: string) {
    forall k :: 0 <= k < |s| ==> s[k] as int < 128
  }

  /** The encoding of one octet: itself when unreserved, `%XX` otherwise. */
  function QuoteChar(c: char): (r: string)
    requires c as int < 128
    ensures 1 <= |r| <= 3
  {
    if Unreserved(c) then [c]
    else ['%', HexDigit(c as nat / 16), HexDigit(c as nat % 16)]
  }

  /** Percent-encoding, the way a listing server writes names into its
      links: unreserved characters stay, every other character becomes `%XX`. */
  function Quote(s: string): (r: string)
    requires IsAscii(s)
    ensures |s| <= |r| <= 3 * |s|
    decreases |s|
  {
    if |s| == 0 then [] else QuoteChar(s[0]) + Quote(s[1..])
  }

  /** Decoding consumes exactly one encoded octet from the front. */
  lemma UnquoteQuoteChar(c: char, rest: string)
    requires c as int < 128
    ensures Unquote(QuoteChar(c) + rest) == [c] + Unquote(rest)
  {
    var q := QuoteChar(c) + rest;
    if Unreserved(c) {
      assert q[1..] == rest;
    } else {
      var n := c as nat;
      assert q[3..] == rest;
      assert EscapeAtFront(q);
      assert HexValue(q[1]) == n / 16 && HexValue(q[2]) == n % 16;
      assert (16 * (n / 16) + n % 16) as char == c;
    }
  }

  /** Decoding undoes encoding: every ASCII name survives the round trip
      through a link and back into a local name. */
  lemma {:induction false} UnquoteQuote(s: string)
    requires IsAscii(s)
    ensures Unquote(Quote(s)) == s
    decreases |s|
  {
    if |s| > 0 {
      UnquoteQuote(s[1..]);
      UnquoteQuoteChar(s[0], Quote(s[1..]));
      assert s == [s[0]] + s[1..];
    }
  }

  /** `%20` between two parts without `%` decodes to a space, and the parts
      stay as they are: `a%20b.txt` becomes `a b.txt`. */
  lemma UnquoteSpace(a: string, b: string)
    requires Free(a, '%') && Free(b, '%')
    ensures Unquote(a + "%20" + b) == a + " " + b
  {
    var t := "%20" + b;
    assert a + "%20" + b == a + t;
    UnquoteFreePrefix(a, t);
    UnquoteSpaceTail(t, b);
    assert a + ([' '] + b) == a + " " + b;
  }

  /** `%20` then a part without `%`: a space, then that part. */
  lemma UnquoteSpaceTail(t: string, b: string)
    requires Free(b, '%') && t == "%20" + b
    ensures Unquote(t) == [' '] + b
  {
    assert EscapeAtFront(t) && t[1] == '2' && t[2] == '0' && t[3..] == b;
    UnquoteEscape(t);
    assert HexValue('2') == 2 && HexValue('0') == 0 && (16 * 2 + 0) as char == ' ';
  }

  /** `%2F` decodes to a slash, and what follows without `%` stays. */
  lemma UnquoteSlashEscape(a: string)
    requires Free(a, '%')
    ensures Unquote("%2F" + a) == "/" + a
  {
    var t := "%2F" + a;
    assert EscapeAtFront(t) && t[1] == '2' && t[2] == 'F' && t[3..] == a;
    UnquoteEscape(t);
    assert HexValue('2') == 2 && HexValue('F') == 15 && (16 * 2 + 15) as char == '/';
  }

  /** A leading part without `%` passes through decoding unchanged. */
  lemma {:induction false} UnquoteFreePrefix(a: string, rest: string)
    requires Free(a, '%')
    ensures Unquote(a + rest) == a + Unquote(rest)
    decreases |a|
  {
    if a == [] {
      assert a + rest == rest;
    } else {
      var s := a + rest;
      assert s[0] == a[0] && s[1..] == a[1..] + rest;
      UnquotePlain(s);
      UnquoteFreePrefix(a[1..], rest);
      assert a == [a[0]] + a[1..];
    }
  }

  /** Decoding a string that starts with a character outside an escape. */
  lemma UnquotePlain(s: string)
    requires s != [] && !EscapeAtFront(s)
    ensures Unquote(s) == [s[0]] + Unquote(s[1..])
  {
  }

  /** Decoding a string that starts with an escape. */
  lemma UnquoteEscape(s: string)
    requires EscapeAtFront(s)
    ensures Unquote(s) == [(16 * HexValue(s[1]) + HexValue(s[2])) as char] + Unquote(s[3..])
  {
  }

  /** A `%` with fewer than two characters after it stays as it is: a name
      `<a>%<x>` ending that way, with no other `%`, decodes to itself, as
      `100%` does. */
  lemma UnquoteTrailingPercent(a: string, x: string)
    requires Free(a, '%') && Free(x, '%') && |x| < 2
    ensures Unquote(a + "%" + x) == a + "%" + x
  {
    var t := "%" + x;
    assert a + "%" + x == a + t;
    UnquoteFreePrefix(a, t);
    UnquotePlain(t);
    assert t[1..] == x;
  }

  /** A `%` not followed by two hex digits is kept, and decoding goes on
      right after it: `%zz%41` becomes `%zzA`. */
  lemma UnquoteBadEscape(s: string)
    requires s != [] && s[0] == '%' && !EscapeAtFront(s)
    ensures Unquote(s) == "%" + Unquote(s[1..])
  {
    UnquotePlain(s);
  }
}

=== FILE: remote.dfy ===
/** The remote side, as a finite tree standing in for `requests.get`.

    A `Response` is what one request returned: its final URL after redirects,
    its `Content-Type` header if sent, its body as text (for a listing) and as
    the chunks `iter_content` streams (for a file), and `served`: the response
    each URL requested while handling this one comes back with. A URL that is
    not served stands for a request that raised, which nothing in the
    downloader catches. Every HTTP status, 404 included, is a `Response`. */
module Remote {
  import opened Strings
  import opened Log

  datatype Response = Response(
    url: string,
    contentType: Option<string>,
    text: string,
    chunks: seq<Bytes>,
    served: seq<Child>)

  /** The answer to one request: the URL asked for and what came back. */
  datatype Child = Child(request: string, response: Response)

  /** The first child answering a request for `url`, if any. */
  function Lookup(served: seq<Child>, url: string): (i: Option<nat>)
    ensures i.Some? ==> i.value < |served| && served[i.value].request == url
    ensures i.Some? ==> forall k :: 0 <= k < i.value ==> served[k].request != url
    ensures i.None? ==> forall k :: 0 <= k < |served| ==> served[k].request != url
  {
    if served == [] then None
    else if served[0].request == url then Some(0)
    else match Lookup(served[1..], url)
      case Some(k) => Some(k + 1)
      case None => None
  }

  /** `'text/html' in response.headers.get('Content-Type', '')`. */
  predicate IsHtml(r: Response) {
    Contains(r.contentType.GetOr(""), "text/html")
  }

  /** A response is HTML exactly when its header, or the empty string when
      it was not sent, has `text/html` at some offset; a response without
      the header is never a listing to follow. */
  lemma IsHtmlIff(r: Response)
    ensures IsHtml(r) <==> exists k :: OccursAt(r.contentType.GetOr(""), "text/html", k)
    ensures r.contentType.None? ==> !IsHtml(r)
  {
    ContainsIffOccurs(r.contentType.GetOr(""), "text/html");
  }
}

=== FILE: rerun.dfy ===
/** Running the downloader a second time into the same destination: every
    directory already exists, so the rerun skips each `makedirs`, requests the
    same URLs, reopens every file with `'wb'`, and leaves the same paths and
    the same file contents behind. */
module Rerun {
  import opened Strings
  import opened Paths
  import opened Links
  import opened Log
  import opened Remote
  import opened Save
  import opened Traversal

  /** A dispatch run again on any filesystem that already holds what the
      first run left, and possibly `extra` paths, issues the first log
      without its `makedirs`, adds no path, and crashes exactly when the
      first did. */
  lemma {:induction false} DispatchAgain(r: Response, d: string, fs: set<string>, extra: set<string>)
    ensures var first := Dispatch(r, d, fs);
            var grown := first.fs + extra;
            var again := Dispatch(r, d, grown);
            && again.log == WithoutMkdirs(first.log)
            && again.fs == grown
            && again.crashed == first.crashed
    decreases r, 2
  {
    var grown := Dispatch(r, d, fs).fs + extra;
    if IsDirectoryUrl(r.url) {
      ParseAgain(r, d, fs, extra);
    } else {
      var path := FilePath(r, d);
      assert path in grown;
      assert grown + {path} == grown;
      var log := SaveFile(r, d);
      assert forall k :: 0 <= k < |log| ==> !log[k].Mkdir? by {
        assert forall k :: 1 <= k < |log| ==> log[k] == Write(path, NonEmpty(r.chunks)[k - 1]);
      }
    }
  }

  lemma {:induction false} ParseAgain(r: Response, d: string, fs: set<string>, extra: set<string>)
    ensures var first := ParseDirectory(r, d, fs);
            var grown := first.fs + extra;
            var again := ParseDirectory(r, d, grown);
            && again.log == WithoutMkdirs(first.log)
            && again.fs == grown
            && again.crashed == first.crashed
    decreases r, 1
  {
    var nd := NewDirectory(r, d);
    var rest := ParseRest(r, nd, fs);
    var grown := rest.fs + extra;
    ParseSplit(r, d, fs);
    ParseSplit(r, d, grown);
    ParseRestAgain(r, nd, fs, extra);
    SkipMakedirs(nd, fs, grown, rest.log);
  }

  /** `ParseAgain` for what follows the `makedirs`; the new directory is
      among the paths the first run leaves. */
  lemma {:induction false} ParseRestAgain(r: Response, nd: string, fs: set<string>, extra: set<string>)
    ensures var first := ParseRest(r, nd, fs);
            var grown := first.fs + extra;
            var again := ParseRest(r, nd, grown);
            && nd in first.fs
            && again.log == WithoutMkdirs(first.log)
            && again.fs == grown
            && again.crashed == first.crashed
    decreases r, 0
  {
    var first := ParseRest(r, nd, fs);
    var grown := first.fs + extra;
    if IsHtml(r) {
      FollowEffect(r, ExtractLinks(r.text), nd, fs + {nd});
      EffectGrows(fs + {nd}, first.log);
      FollowAgain(r, ExtractLinks(r.text), nd, fs + {nd}, extra);
    }
    assert grown + {nd} == grown;
  }

  /** With the new directory already present, the rerun's optional
      `makedirs` is gone and the rest is the first run's without its own. */
  lemma SkipMakedirs(nd: string, fs: set<string>, grown: set<string>, rest: seq<Action>)
    requires nd in grown
    ensures var made := if nd in fs then [] else [Mkdir(nd)];
            (if nd in grown then [] else [Mkdir(nd)]) + WithoutMkdirs(rest) == WithoutMkdirs(made + rest)
  {
    var made := if nd in fs then [] else [Mkdir(nd)];
    WithoutMkdirsAppend(made, rest);
    assert WithoutMkdirs(made) == [];
  }

  lemma {:induction false} FollowAgain(r: Response, links: seq<string>, nd: string, fs: set<string>, extra: set<string>)
    ensures var first := FollowLinks(r, links, nd, fs);
            var grown := first.fs + extra;
            var again := FollowLinks(r, links, nd, grown);
            && again.log == WithoutMkdirs(first.log)
            && again.fs == grown
            && again.crashed == first.crashed
    decreases r, 0, |links|
  {
    if links != [] {
      var url := ChildUrl(r.url, links[0]);
      match Lookup(r.served, url)
      case None =>
      case Some(i) =>
        var sub := r.served[i].response;
        var child := Dispatch(sub, nd, fs);
        WithoutMkdirsAppend([Fetch(url, nd)], child.log);
        if child.crashed {
          DispatchAgain(sub, nd, fs, extra);
        } else {
          var rest := FollowLinks(r, links[1..], nd, child.fs);
          var grown := rest.fs + extra;
          FollowEffect(r, links[1..], nd, child.fs);
          EffectGrows(child.fs, rest.log);
          assert child.fs + grown == grown;
          DispatchAgain(sub, nd, fs, grown);
          FollowAgain(r, links[1..], nd, child.fs, extra);
          WithoutMkdirsAppend([Fetch(url, nd)] + child.log, rest.log);
        }
    }
  }

  /** Every write of a run follows the `open(path, 'wb')` of the same file. */
  lemma {:induction false} DispatchOpened(r: Response, d: string, fs: set<string>)
    ensures WritesOpened(Dispatch(r, d, fs).log)
    decreases r, 2
  {
    if IsDirectoryUrl(r.url) {
      ParseOpened(r, d, fs);
    } else {
      var path := FilePath(r, d);
      var log := SaveFile(r, d);
      forall k | 0 <= k < |log| && log[k].Write?
        ensures exists j :: 0 <= j < k && log[j] == Create(log[k].path)
      {
        assert log[k] == Write(path, NonEmpty(r.chunks)[k - 1]);
        assert log[0] == Create(path);
      }
    }
  }

  lemma {:induction false} ParseOpened(r: Response, d: string, fs: set<string>)
    ensures WritesOpened(ParseDirectory(r, d, fs).log)
    decreases r, 1
  {
    var nd := NewDirectory(r, d);
    var made := if nd in fs then [] else [Mkdir(nd)];
    ParseSplit(r, d, fs);
    if IsHtml(r) {
      FollowOpened(r, ExtractLinks(r.text), nd, fs + {nd});
    }
    WritesOpenedAppend(made, ParseRest(r, nd, fs).log);
  }

  lemma {:induction false} FollowOpened(r: Response, links: seq<string>, nd: string, fs: set<string>)
    ensures WritesOpened(FollowLinks(r, links, nd, fs).log)
    decreases r, 0, |links|
  {
    if links != [] {
      var url := ChildUrl(r.url, links[0]);
      match Lookup(r.served, url)
      case None =>
      case Some(i) =>
        var child := Dispatch(r.served[i].response, nd, fs);
        DispatchOpened(r.served[i].response, nd, fs);
        WritesOpenedAppend([Fetch(url, nd)], child.log);
        if !child.crashed {
          var rest := FollowLinks(r, links[1..], nd, child.fs);
          FollowOpened(r, links[1..], nd, child.fs);
          WritesOpenedAppend([Fetch(url, nd)] + child.log, rest.log);
        }
    }
  }

  /** The program run twice with the same arguments against the same remote
      tree: the second run starts from the paths the first left, makes no
      directory, issues the first run's requests and writes, ends with the
      same paths, crashes exactly when the first did, and leaves every file
      as the first run left it. */
  lemma CrawlTwice(url: string, root: Option<Response>, dest: string, fs: set<string>, files: map<string, Bytes>)
    ensures var first := Crawl(url, root, dest, fs);
            var again := Crawl(url, root, dest, first.fs);
            && again.fs == first.fs
            && again.crashed == first.crashed
            && (forall k :: 0 <= k < |again.log| ==> !again.log[k].Mkdir?)
            && again.log == WithoutMkdirs(first.log)
            && Replay(Replay(files, first.log), again.log) == Replay(files, first.log)
  {
    var first := Crawl(url, root, dest, fs);
    if root.Some? {
      var out := Dispatch(root.value, dest, fs);
      DispatchAgain(root.value, dest, fs, {});
      assert out.fs + {} == out.fs;
      DispatchOpened(root.value, dest, fs);
      WithoutMkdirsAppend([Fetch(url, dest)], out.log);
      WritesOpenedAppend([Fetch(url, dest)], out.log);
    }
    ReplayWithoutMkdirs(Replay(files, first.log), first.log);
    ReplayTwice(files, first.log);
  }
}

=== FILE: save.dfy ===
/** `save_file`: open `directory/<file name>` for writing and write every
    non-empty chunk of the body to it, in order. Also the fixed-size chunking
    `iter_content(chunk_size=131072)` applies to a plain body. */
module Save {
  import opened Paths
  import opened Names
  import opened Log
  import opened Remote

  /** The `chunk_size` `save_file` streams with: 128 KiB. */
  const ChunkSize: nat := 131072

  /** The chunks that are not empty, in their original order. */
  function NonEmpty(chunks: seq<Bytes>): (r: seq<Bytes>)
    ensures |r| <= |chunks|
    ensures forall k :: 0 <= k < |r| ==> r[k] != []
    decreases |chunks|
  {
    if chunks == [] then []
    else (if chunks[0] == [] then [] else [chunks[0]]) + NonEmpty(chunks[1..])
  }

  /** The filter keeps exactly the non-empty chunks: every chunk it keeps was
      streamed, and every non-empty chunk streamed is kept. */
  lemma {:induction false} NonEmptyMembers(chunks: seq<Bytes>)
    ensures forall x :: x in NonEmpty(chunks) ==> x in chunks && x != []
    ensures forall k :: 0 <= k < |chunks| && chunks[k] != [] ==> chunks[k] in NonEmpty(chunks)
    decreases |chunks|
  {
    if chunks != [] {
      NonEmptyMembers(chunks[1..]);
      assert forall k :: 1 <= k < |chunks| ==> chunks[k] == chunks[1..][k - 1];
    }
  }

  /** All chunks joined end to end. */
  function Concat(chunks: seq<Bytes>): Bytes
    decreases |chunks|
  {
    if chunks == [] then [] else chunks[0] + Concat(chunks[1..])
  }

  /** Dropping empty chunks changes neither the joined bytes nor a list that
      had none. */
  lemma {:induction false} NonEmptyKeepsBytes(chunks: seq<Bytes>)
    ensures Concat(NonEmpty(chunks)) == Concat(chunks)
    ensures (forall k :: 0 <= k < |chunks| ==> chunks[k] != []) ==> NonEmpty(chunks) == chunks
    decreases |chunks|
  {
    if chunks != [] {
      NonEmptyKeepsBytes(chunks[1..]);
      var rest := NonEmpty(chunks[1..]);
      if chunks[0] != [] {
        assert NonEmpty(chunks) == [chunks[0]] + rest;
        assert ([chunks[0]] + rest)[1..] == rest;
      } else {
        assert NonEmpty(chunks) == [] + rest == rest;
        assert Concat(chunks) == [] + Concat(chunks[1..]) == Concat(chunks[1..]);
      }
    }
  }

  /** The loop `for chunk in ...: if chunk: file.write(chunk)`. */
  function WriteLoop(path: string, chunks: seq<Bytes>): (log: seq<Action>)
    ensures |log| == |NonEmpty(chunks)|
    ensures forall k :: 0 <= k < |log| ==> log[k] == Write(path, NonEmpty(chunks)[k])
    decreases |chunks|
  {
    if chunks == [] then []
    else if chunks[0] == [] then
      assert NonEmpty(chunks) == [] + NonEmpty(chunks[1..]) == NonEmpty(chunks[1..]);
      WriteLoop(path, chunks[1..])
    else
      var rest := WriteLoop(path, chunks[1..]);
      assert NonEmpty(chunks) == [chunks[0]] + NonEmpty(chunks[1..]);
      [Write(path, chunks[0])] + rest
  }

  /** Where `save_file` puts a response fetched into `directory`. */
  function FilePath(r: Response, directory: string): string {
    Join(directory, FileName(r.url))
  }

  /** Opening `path` with `'wb'`, then the write loop: one create, then one
      write of each non-empty chunk, in order. */
  function SaveTo(path: string, chunks: seq<Bytes>): (log: seq<Action>)
    ensures |log| == 1 + |NonEmpty(chunks)|
    ensures log[0] == Create(path)
    ensures forall k :: 0 <= k < |NonEmpty(chunks)| ==> log[k + 1] == Write(path, NonEmpty(chunks)[k])
  {
    var writes := WriteLoop(path, chunks);
    var log := [Create(path)] + writes;
    assert forall k :: 0 <= k < |writes| ==> log[k + 1] == writes[k];
    log
  }

  /** `save_file(response, directory)`: create or truncate the file named
      after the response's URL, then one write of each non-empty chunk to
      it, in order. */
  function SaveFile(r: Response, directory: string): (log: seq<Action>)
    ensures |log| == 1 + |NonEmpty(r.chunks)|
    ensures log[0] == Create(FilePath(r, directory))
    ensures forall k :: 0 <= k < |NonEmpty(r.chunks)| ==> log[k + 1] == Write(FilePath(r, directory), NonEmpty(r.chunks)[k])
  {
    SaveTo(FilePath(r, directory), r.chunks)
  }

  /** `save_file` touches one path only, inside `directory`: it creates it
      first and then writes each non-empty chunk to it, one write per chunk;
      it makes no directory and issues no request. */
  lemma SaveFileShape(r: Response, directory: string)
    ensures var log := SaveFile(r, directory);
            && log[0] == Create(FilePath(r, directory))
            && |log| == 1 + |NonEmpty(r.chunks)|
            && (forall k :: 1 <= k < |log| ==>
                  log[k].Write? && log[k].path == FilePath(r, directory) && log[k].data != [])
            && AllUnder(log, directory)
  {
    var log := SaveFile(r, directory);
    JoinUnder(directory, FileName(r.url));
    forall k | 1 <= k < |log|
      ensures log[k].Write? && log[k].path == FilePath(r, directory) && log[k].data != []
    {
      assert log[k] == Write(FilePath(r, directory), NonEmpty(r.chunks)[k - 1]);
    }
  }

  /** The write loop creates no path and makes no directory. */
  lemma {:induction false} WriteLoopInert(fs: set<string>, path: string, chunks: seq<Bytes>)
    ensures Effect(fs, WriteLoop(path, chunks)) == fs
    ensures MkdirsFresh(fs, WriteLoop(path, chunks))
    decreases |chunks|
  {
    if chunks != [] {
      WriteLoopInert(fs, path, chunks[1..]);
      if chunks[0] != [] {
        assert WriteLoop(path, chunks)[1..] == WriteLoop(path, chunks[1..]);
      }
    }
  }

  /** Replaying the write loop on a file holding `prefix` appends every chunk. */
  lemma {:induction false} ReplayWriteLoop(files: map<string, Bytes>, path: string, chunks: seq<Bytes>)
    requires path in files
    ensures var out := Replay(files, WriteLoop(path, chunks));
            && out.Keys == files.Keys
            && out[path] == files[path] + Concat(chunks)
            && forall p :: p in files && p != path ==> out[p] == files[p]
    decreases |chunks|
  {
    if chunks == [] {
      assert files[path] + [] == files[path];
    } else {
      var tail := chunks[1..];
      if chunks[0] == [] {
        assert WriteLoop(path, chunks) == WriteLoop(path, tail);
        ReplayWriteLoop(files, path, tail);
        assert Concat(chunks) == [] + Concat(tail) == Concat(tail);
      } else {
        var files' := files[path := files[path] + chunks[0]];
        ReplayFirstWrite(files, path, chunks);
        ReplayWriteLoop(files', path, tail);
        assert files[path] + chunks[0] + Concat(tail) == files[path] + (chunks[0] + Concat(tail));
      }
    }
  }

  /** The first write of the loop appends the first chunk. */
  lemma ReplayFirstWrite(files: map<string, Bytes>, path: string, chunks: seq<Bytes>)
    requires path in files && chunks != [] && chunks[0] != []
    ensures Replay(files, WriteLoop(path, chunks))
            == Replay(files[path := files[path] + chunks[0]], WriteLoop(path, chunks[1..]))
  {
    var log := WriteLoop(path, chunks);
    assert log == [Write(path, chunks[0])] + WriteLoop(path, chunks[1..]);
    assert log[1..] == WriteLoop(path, chunks[1..]);
  }

  /** After `save_file` the file holds exactly the whole body, all chunks in
      order, whatever it held before; no other file changes. */
  lemma SaveFileContents(files: map<string, Bytes>, r: Response, directory: string)
    ensures var out := Replay(files, SaveFile(r, directory));
            && out.Keys == files.Keys + {FilePath(r, directory)}
            && out[FilePath(r, directory)] == Concat(r.chunks)
            && forall p :: p in files && p != FilePath(r, directory) ==> out[p] == files[p]
  {
    SaveToContents(files, FilePath(r, directory), r.chunks);
  }

  /** Creating `path` and running the write loop leaves exactly the chunks in
      it, and no other file changes. */
  lemma SaveToContents(files: map<string, Bytes>, path: string, chunks: seq<Bytes>)
    ensures var out := Replay(files, SaveTo(path, chunks));
            && out.Keys == files.Keys + {path}
            && out[path] == Concat(chunks)
            && forall p :: p in files && p != path ==> out[p] == files[p]
  {
    ReplayCreate(files, path, WriteLoop(path, chunks));
    ReplayWriteLoop(files[path := []], path, chunks);
  }

  /** Opening a file for writing empties it before the rest of the log runs. */
  lemma ReplayCreate(files: map<string, Bytes>, path: string, rest: seq<Action>)
    ensures Replay(files, [Create(path)] + rest) == Replay(files[path := []], rest)
  {
    assert ([Create(path)] + rest)[1..] == rest;
  }

  /** Fixed-size chunking of a plain body, as `iter_content(chunk_size=n)`
      yields it: full chunks of `n` bytes and a shorter last one. */
  function ChunksOf(body: Bytes, n: nat): (cs: seq<Bytes>)
    requires n > 0
    ensures forall k :: 0 <= k < |cs| ==> 0 < |cs[k]| <= n
    decreases |body|
  {
    if |body| == 0 then []
    else if |body| <= n then [body]
    else [body[..n]] + ChunksOf(body[n..], n)
  }

  /** Chunking loses nothing, and takes the fewest chunks of at most `n`
      bytes that hold the body: ceil(|body| / n). */
  lemma {:induction false} ChunksOfRoundTrip(body: Bytes, n: nat)
    requires n > 0
    ensures Concat(ChunksOf(body, n)) == body
    ensures |body| == 0 ==> ChunksOf(body, n) == []
    ensures |body| > 0 ==> (|ChunksOf(body, n)| - 1) * n < |body| <= |ChunksOf(body, n)| * n
    decreases |body|
  {
    if |body| == 0 {
    } else if |body| <= n {
      assert body + [] == body;
    } else {
      var rest := ChunksOf(body[n..], n);
      ChunksOfRoundTrip(body[n..], n);
      assert body[..n] + body[n..] == body;
      assert ChunksOf(body, n)[1..] == rest;
      assert (|rest| + 1) * n == |rest| * n + n;
    }
  }

  /** A streamed body saved with `save_file` arrives whole, one write per
      chunk: a 300000-byte body takes three chunks, so three writes. */
  lemma StreamedSave(files: map<string, Bytes>, r: Response, directory: string, body: Bytes)
    requires r.chunks == ChunksOf(body, ChunkSize)
    ensures var out := Replay(files, SaveFile(r, directory));
            FilePath(r, directory) in out && out[FilePath(r, directory)] == body
    ensures |SaveFile(r, directory)| == 1 + |r.chunks|
    ensures |body| == 300000 ==> |r.chunks| == 3 && |SaveFile(r, directory)| == 4
  {
    SaveFileContents(files, r, directory);
    ChunksOfRoundTrip(body, ChunkSize);
    NonEmptyKeepsBytes(r.chunks);
    if |body| == 300000 {
      ThreeChunks(|r.chunks|);
    }
  }

  /** The fewest chunks of `ChunkSize` bytes that hold 300000 bytes are three. */
  lemma ThreeChunks(c: nat)
    requires c > 0 && (c - 1) * ChunkSize < 300000 <= c * ChunkSize
    ensures c == 3
  {
  }
}

=== FILE: scenarios.dfy ===
/** End-to-end runs of the model on small remote trees. */
module Scenarios {
  import opened Strings
  import opened Paths
  import opened Percent
  import opened Names
  import opened Links
  import opened Log
  import opened Remote
  import opened Save
  import opened Traversal

  /** A listing at `<base><name>/` makes a directory called `name`. */
  lemma ListingDirectoryName(base: string, name: string)
    requires EndsWith(base, '/')
    requires name != [] && Free(name, '/') && Free(name, '%')
    ensures DirectoryName(base + name + "/") == name
  {
    var u := base + name + "/";
    assert u[..|u| - 1] == base + name;
    assert RStripSlashes(u) == RStripSlashes(base + name);
    assert (base + name)[|base + name| - 1] == name[|name| - 1];
    BasenameCharacterized(base + name, base, name);
  }

  /** A listing at `<base>%2E%2E/` is named `..` once decoded, so its
      directory is made at `dest/..`: below `dest` as text, the parent of
      `dest` on disk. */
  lemma DotDotListing(base: string, dest: string)
    requires EndsWith(base, '/')
    ensures DirectoryName(base + "%2E%2E/") == ".."
    ensures Join(dest, DirectoryName(base + "%2E%2E/")) == dest + "/.."
    ensures Under(Join(dest, DirectoryName(base + "%2E%2E/")), dest)
  {
    DotDotName(base, "%2E%2E");
    assert base + "%2E%2E" + "/" == base + "%2E%2E/";
    assert dest + "/" + ".." == dest + "/..";
    JoinUnder(dest, "..");
  }

  /** A file link `%2F<a>` is saved under the decoded name `/<a>`, which is
      absolute: `os.path.join(d, "/<a>")` is `/<a>` itself, outside `d`. The
      model's join writes `d//<a>`, below `d` as text. */
  lemma SlashEscapeName(parent: string, a: string, d: string)
    requires Free(a, '%') && Free(a, '/')
    ensures FileName(ChildUrl(parent, "%2F" + a)) == "/" + a
    ensures Join(d, FileName(ChildUrl(parent, "%2F" + a))) == d + "//" + a
    ensures Under(Join(d, FileName(ChildUrl(parent, "%2F" + a))), d)
  {
    SlashEscapeFileName(parent, a);
    assert d + "/" + ("/" + a) == d + "//" + a;
    JoinUnder(d, "/" + a);
  }

  /** The directory name of `<base><name>/` for the encoded name `%2E%2E`. */
  lemma DotDotName(base: string, name: string)
    requires EndsWith(base, '/') && name == "%2E%2E"
    ensures DirectoryName(base + name + "/") == ".."
  {
    var u := base + name + "/";
    assert u[..|u| - 1] == base + name;
    assert RStripSlashes(u) == RStripSlashes(base + name);
    assert (base + name)[|base + name| - 1] == name[|name| - 1];
    BasenameCharacterized(base + name, base, name);
    assert DirSegment(u) == name;
    EncodedDot(name);
  }

  /** `%2E%2E` decodes to `..`. */
  lemma EncodedDot(name: string)
    requires name == "%2E%2E"
    ensures Unquote(name) == ".."
  {
    assert EscapeAtFront(name) && HexValue('2') == 2 && HexValue('E') == 14;
    var tail := name[3..];
    assert tail == "%2E" && EscapeAtFront(tail) && tail[3..] == [];
  }

  /** The shape of the one-file tree's URLs: the listing `<base><name>/`
      with a plain segment `name`, and a plain link `link` that the `href`
      pattern captures whole. */
  predicate OneFileShape(base: string, name: string, link: string) {
    && EndsWith(base, '/')
    && name != [] && Free(name, '/') && Free(name, '%')
    && IsRun(link) && Free(link, '/') && Free(link, '%')
  }

  /** The listing of the one-file tree below. */
  function OneLinkListing(link: string): string {
    Entry("<a ", link, "\">file</a>")
  }

  /** A remote tree: an HTML listing at `url` with one link, `link`, whose
      request is answered by a file with the given chunks. */
  function OneFileTree(url: string, link: string, chunks: seq<Bytes>): Response {
    var child := url + "/" + link;
    Response(url, Some("text/html"), OneLinkListing(link), [],
             [Child(child, Response(child, Some("application/octet-stream"), "", chunks, []))])
  }

  /** A loop over one link whose request is answered, first in line, by a
      file: the request, then the save. */
  lemma FollowOneFile(r: Response, link: string, nd: string, fs: set<string>)
    requires |r.served| > 0 && r.served[0].request == ChildUrl(r.url, link)
    requires !IsDirectoryUrl(r.served[0].response.url)
    ensures var file := r.served[0].response;
            FollowLinks(r, [link], nd, fs)
              == Run([Fetch(ChildUrl(r.url, link), nd)] + SaveFile(file, nd), fs + {FilePath(file, nd)}, false)
  {
    var file := r.served[0].response;
    var got := Dispatch(file, nd, fs);
    assert [link][0] == link && [link][1..] == [];
    assert Lookup(r.served, ChildUrl(r.url, link)) == Some(0);
    assert FollowLinks(r, [], nd, got.fs) == Run([], got.fs, false);
    assert [Fetch(ChildUrl(r.url, link), nd)] + got.log + [] == [Fetch(ChildUrl(r.url, link), nd)] + got.log;
  }

  /** Facts about the one-file tree, each on its own. */
  lemma OneFileTreeFacts(base: string, name: string, link: string, dest: string, chunks: seq<Bytes>)
    requires OneFileShape(base, name, link)
    ensures var url := base + name + "/";
            var root := OneFileTree(url, link, chunks);
            && NewDirectory(root, dest) == dest + "/" + name
            && IsHtml(root)
            && ExtractLinks(root.text) == [link]
            && root.served[0].request == ChildUrl(root.url, link)
            && !IsDirectoryUrl(root.served[0].response.url)
            && FilePath(root.served[0].response, dest + "/" + name) == dest + "/" + name + "/" + link
  {
    var url := base + name + "/";
    var root := OneFileTree(url, link, chunks);
    ListingDirectoryName(base, name);
    assert IsPrefix("text/html", "text/html");
    NoHrefWithoutH("<a ");
    NoHrefWithoutH("\">file</a>");
    OneQuotedLink(root.text, "<a ", link, "\">file</a>");
    FileNameOfChild(url, link);
  }

  /** Crawling the one-file tree requests the root, makes the directory,
      requests the link, and saves the file. */
  lemma OneFileLog(base: string, name: string, link: string, dest: string, chunks: seq<Bytes>)
    requires OneFileShape(base, name, link)
    ensures var url := base + name + "/";
            var root := OneFileTree(url, link, chunks);
            var out := Crawl(url, Some(root), dest, {dest});
            var nd := dest + "/" + name;
            && !out.crashed
            && out.log == [Fetch(url, dest), Mkdir(nd), Fetch(url + "/" + link, nd)]
                          + SaveFile(root.served[0].response, nd)
            && FilePath(root.served[0].response, nd) == nd + "/" + link
  {
    var url := base + name + "/";
    var root := OneFileTree(url, link, chunks);
    var nd := dest + "/" + name;
    OneFileTreeFacts(base, name, link, dest, chunks);
    assert nd != dest by { assert |nd| > |dest|; }
    var fetch := Fetch(url + "/" + link, nd);
    var save := SaveFile(root.served[0].response, nd);
    FollowOneFile(root, link, nd, {dest} + {nd});
    var follow := FollowLinks(root, [link], nd, {dest} + {nd});
    assert follow.log == [fetch] + save && !follow.crashed;
    CrawlListing(url, root, dest, {dest});
    Regroup3(Fetch(url, dest), Mkdir(nd), fetch, save);
  }

  /** Three actions, then a log. */
  lemma Regroup3(a: Action, b: Action, c: Action, rest: seq<Action>)
    ensures [a, b] + ([c] + rest) == [a, b, c] + rest
  {
  }

  /** Crawling a root that is an HTML listing whose directory does not exist
      yet: the root request, the `makedirs`, then the link loop. */
  lemma CrawlListing(url: string, root: Response, dest: string, fs: set<string>)
    requires IsDirectoryUrl(root.url) && IsHtml(root)
    requires NewDirectory(root, dest) !in fs
    ensures var nd := NewDirectory(root, dest);
            var follow := FollowLinks(root, ExtractLinks(root.text), nd, fs + {nd});
            var out := Crawl(url, Some(root), dest, fs);
            out == Run([Fetch(url, dest), Mkdir(nd)] + follow.log, follow.fs, follow.crashed)
  {
    var nd := NewDirectory(root, dest);
    var follow := FollowLinks(root, ExtractLinks(root.text), nd, fs + {nd});
    assert ParseDirectory(root, dest, fs) == Run([Mkdir(nd)] + follow.log, follow.fs, follow.crashed);
    assert [Fetch(url, dest)] + ([Mkdir(nd)] + follow.log) == [Fetch(url, dest), Mkdir(nd)] + follow.log;
  }

  /** Mirroring `<base><name>/`, an HTML listing with the one link `link`
      whose target answers with a 300000-byte body streamed in 128 KiB
      chunks (`http://x/data/` and `f.bin`, say): the root request, the
      directory `name`, one request for the link (the parent URL, a slash,
      and the link), and the file `name/link` written in three chunks that
      together hold the whole body. */
  lemma MirrorOneFile(base: string, name: string, link: string, dest: string, body: Bytes)
    requires OneFileShape(base, name, link)
    requires |body| == 300000
    ensures var url := base + name + "/";
            var out := Crawl(url, Some(OneFileTree(url, link, ChunksOf(body, ChunkSize))), dest, {dest});
            var nd := dest + "/" + name;
            var path := nd + "/" + link;
            && !out.crashed
            && |out.log| == 7
            && out.log[..4] == [Fetch(url, dest), Mkdir(nd), Fetch(url + "/" + link, nd), Create(path)]
            && path in Replay(map[], out.log)
            && Replay(map[], out.log)[path] == body
  {
    var url := base + name + "/";
    var root := OneFileTree(url, link, ChunksOf(body, ChunkSize));
    var nd := dest + "/" + name;
    var file := root.served[0].response;
    var path := nd + "/" + link;
    OneFileLog(base, name, link, dest, ChunksOf(body, ChunkSize));
    var out := Crawl(url, Some(root), dest, {dest});
    SavedAfter(Fetch(url, dest), Mkdir(nd), Fetch(url + "/" + link, nd), file, nd, body, out.log, path);
  }

  /** Two requests around a `makedirs`, then a streamed save of a
      300000-byte body: seven actions, the fourth creating the file, which
      ends up holding the body. */
  lemma SavedAfter(a: Action, b: Action, c: Action, file: Response, nd: string, body: Bytes, log: seq<Action>, path: string)
    requires a.Fetch? && b.Mkdir? && c.Fetch?
    requires file.chunks == ChunksOf(body, ChunkSize) && |body| == 300000
    requires log == [a, b, c] + SaveFile(file, nd) && path == FilePath(file, nd)
    ensures |log| == 7
    ensures log[..4] == [a, b, c, Create(path)]
    ensures path in Replay(map[], log) && Replay(map[], log)[path] == body
  {
    StreamedSave(map[], file, nd, body);
    ReplaySkipsInert(map[], [a, b, c], SaveFile(file, nd));
    assert log[..4] == [a, b, c] + [log[3]];
  }
}

=== FILE: strings.dfy ===
/** Small vocabulary shared by the rest of the model: an optional value, and
    the two substring tests Python spells `s.endswith(c)` and `needle in s`. */
module Strings {

  /** A value that may be absent, as a header that was not sent. */
  datatype Option<+T> = None | Some(value: T) {
    /** The contained value, or `default` when absent (Python's `dict.get(k, default)`). */
    function GetOr(default: T): T {
      match this
      case Some(v) => v
      case None => default
    }
  }

  /** `s` ends with the character `c`; false on the empty string, as in Python. */
  predicate EndsWith(s: string, c: char) {
    |s| > 0 && s[|s| - 1] == c
  }

  /** `c` does not occur in `s`. */
  predicate Free(s: string, c: char) {
    forall k :: 0 <= k < |s| ==> s[k] != c
  }

  /** `p` is a prefix of `s`. */
  predicate IsPrefix(p: string, s: string) {
    |p| <= |s| && s[..|p|] == p
  }

  /** Python's `needle in hay` on strings, scanned left to right. */
  predicate Contains(hay: string, needle: string)
    decreases |hay|
  {
    IsPrefix(needle, hay) || (|hay| > 0 && Contains(hay[1..], needle))
  }

  /** `needle` occurs in `hay` at offset `k`. */
  predicate OccursAt(hay: string, needle: string, k: int) {
    0 <= k && k + |needle| <= |hay| && hay[k..k + |needle|] == needle
  }

  /** `Contains` holds exactly when `needle` occurs at some offset of `hay`. */
  lemma {:induction false} ContainsIffOccurs(hay: string, needle: string)
    ensures Contains(hay, needle) <==> exists k :: OccursAt(hay, needle, k)
    decreases |hay|
  {
    if IsPrefix(needle, hay) {
      assert OccursAt(hay, needle, 0);
    } else if |hay| == 0 {
    } else {
      ContainsIffOccurs(hay[1..], needle);
      if exists k :: OccursAt(hay, needle, k) {
        var k :| OccursAt(hay, needle, k);
        if k != 0 {
          assert hay[1..][k - 1..k - 1 + |needle|] == hay[k..k + |needle|];
          assert OccursAt(hay[1..], needle, k - 1);
        }
      }
      if Contains(hay[1..], needle) {
        var k :| OccursAt(hay[1..], needle, k);
        assert hay[k + 1..k + 1 + |needle|] == hay[1..][k..k + |needle|];
        assert OccursAt(hay, needle, k + 1);
      }
    }
  }
}

=== FILE: traversal.dfy ===
/** `parse_directory`, the dispatch on a response's final URL, and the root
    request of the program's entry point, as functions from a remote tree and
    the set of existing local paths to a log of actions.

    The program recurses without bound: each listing reached is a nested
    call, so on a listing that links back to itself or to an ancestor it
    stops only when Python's recursion limit raises, or when `os.makedirs`
    rejects an over-long path. The model's remote tree is finite, so every
    traversal here ends and that case does not arise. */
module Traversal {
  import opened Strings
  import opened Paths
  import opened Names
  import opened Links
  import opened Log
  import opened Remote
  import opened Save

  /** What a traversal did, the paths that exist afterwards, and whether it
      ended with a request that raised. */
  datatype Run = Run(log: seq<Action>, fs: set<string>, crashed: bool)

  /** The local directory `parse_directory` makes for a listing fetched into
      `directory`. */
  function NewDirectory(r: Response, directory: string): string {
    Join(directory, DirectoryName(r.url))
  }

  /** The URLs `parse_directory` requests for `links`, in order: each is the
      listing's URL, one slash, and the link unchanged. */
  function ChildUrls(parent: string, links: seq<string>): (urls: seq<string>)
    ensures |urls| == |links|
    ensures forall k :: 0 <= k < |links| ==> urls[k] == ChildUrl(parent, links[k])
  {
    seq(|links|, k requires 0 <= k < |links| => ChildUrl(parent, links[k]))
  }

  /** Each requested URL is the listing's URL, one slash, then the link
      unchanged. */
  lemma ChildUrlsParts(parent: string, links: seq<string>)
    ensures var urls := ChildUrls(parent, links);
            forall k :: 0 <= k < |links| ==>
              && |urls[k]| == |parent| + 1 + |links[k]|
              && IsPrefix(parent + "/", urls[k])
              && urls[k][|parent| + 1..] == links[k]
  {
    var urls := ChildUrls(parent, links);
    forall k | 0 <= k < |links|
      ensures IsPrefix(parent + "/", urls[k]) && urls[k][|parent| + 1..] == links[k]
    {
      ChildUrlParts(parent, links[k]);
      assert urls[k][..|parent| + 1] == parent + "/";
    }
  }

  /** A fetched response goes to `parse_directory` when its final URL ends in
      a slash and to `save_file` otherwise. */
  function Dispatch(r: Response, directory: string, fs: set<string>): (out: Run)
    ensures IsDirectoryUrl(r.url) && NewDirectory(r, directory) !in fs ==>
              out.log != [] && out.log[0] == Mkdir(NewDirectory(r, directory))
    ensures !IsDirectoryUrl(r.url) ==>
              !out.crashed && out.log != [] && out.log[0] == Create(FilePath(r, directory))
    decreases r, 2
  {
    if IsDirectoryUrl(r.url) then ParseDirectory(r, directory, fs)
    else Run(SaveFile(r, directory), fs + {FilePath(r, directory)}, false)
  }

  /** `parse_directory(response, directory)`: make the directory if it is
      absent, then, for an HTML listing only, follow every extracted link. */
  function ParseDirectory(r: Response, directory: string, fs: set<string>): (out: Run)
    ensures NewDirectory(r, directory) !in fs ==>
              out.log != [] && out.log[0] == Mkdir(NewDirectory(r, directory))
    ensures NewDirectory(r, directory) in fs ==> out.log == [] || out.log[0].Fetch?
    ensures !IsHtml(r) ==> !out.crashed && |out.log| <= 1
    decreases r, 1
  {
    var nd := NewDirectory(r, directory);
    var made := if nd in fs then [] else [Mkdir(nd)];
    if IsHtml(r) then
      var rest := FollowLinks(r, ExtractLinks(r.text), nd, fs + {nd});
      Run(made + rest.log, rest.fs, rest.crashed)
    else
      Run(made, fs + {nd}, false)
  }

  /** The loop over `links`: request each child URL, then dispatch what came
      back into `nd`. A request that raises ends the whole run. */
  function FollowLinks(r: Response, links: seq<string>, nd: string, fs: set<string>): (out: Run)
    ensures out.log == [] <==> links == []
    ensures links != [] ==> out.log[0] == Fetch(ChildUrl(r.url, links[0]), nd)
    decreases r, 0, |links|
  {
    if links == [] then Run([], fs, false)
    else
      var url := ChildUrl(r.url, links[0]);
      match Lookup(r.served, url)
      case None => Run([Fetch(url, nd)], fs, true)
      case Some(i) =>
        var child := Dispatch(r.served[i].response, nd, fs);
        if child.crashed then Run([Fetch(url, nd)] + child.log, child.fs, true)
        else
          var rest := FollowLinks(r, links[1..], nd, child.fs);
          Run([Fetch(url, nd)] + child.log + rest.log, rest.fs, rest.crashed)
  }

  /** The entry point after its argument checks: request `url`, then dispatch
      the response into `dest`. `None` is a root request that raised. */
  function Crawl(url: string, root: Option<Response>, dest: string, fs: set<string>): (out: Run)
    ensures out.log != [] && out.log[0] == Fetch(url, dest)
    ensures root.None? ==> out.crashed && |out.log| == 1
  {
    match root
    case None => Run([Fetch(url, dest)], fs, true)
    case Some(r) =>
      var out := Dispatch(r, dest, fs);
      Run([Fetch(url, dest)] + out.log, out.fs, out.crashed)
  }

  /** Every action of the loop over a listing's links is one of its own
      requests, into `nd`, or happens strictly inside `nd`. */
  predicate InsideListing(log: seq<Action>, nd: string) {
    forall k :: 0 <= k < |log| ==>
      (log[k].Fetch? && log[k].into == nd) || Under(Place(log[k]), nd)
  }

  /** Everything a dispatch into `d` does happens strictly inside `d`. */
  lemma {:induction false} DispatchPlaced(r: Response, d: string, fs: set<string>)
    ensures AllUnder(Dispatch(r, d, fs).log, d)
    decreases r, 2
  {
    if IsDirectoryUrl(r.url) {
      ParsePlaced(r, d, fs);
    } else {
      SaveFileShape(r, d);
    }
  }

  /** Everything `parse_directory` does happens strictly inside `d`: the new
      directory itself, requests into it, and what lies inside it. */
  lemma {:induction false} ParsePlaced(r: Response, d: string, fs: set<string>)
    ensures var nd := NewDirectory(r, d);
            var log := ParseDirectory(r, d, fs).log;
            && AllUnder(log, d)
            && forall k :: 0 <= k < |log| ==>
                 log[k] == Mkdir(nd) || (log[k].Fetch? && log[k].into == nd) || Under(Place(log[k]), nd)
    decreases r, 1
  {
    var nd := NewDirectory(r, d);
    var log := ParseDirectory(r, d, fs).log;
    var made := if nd in fs then [] else [Mkdir(nd)];
    JoinUnder(d, DirectoryName(r.url));
    if IsHtml(r) {
      var rest := FollowLinks(r, ExtractLinks(r.text), nd, fs + {nd});
      FollowPlaced(r, ExtractLinks(r.text), nd, fs + {nd});
      assert log == made + rest.log;
      PlacedConcat(made, rest.log, nd, d);
    } else {
      assert log == made + [];
      PlacedConcat(made, [], nd, d);
    }
  }

  /** The new directory followed by actions inside its listing stays inside
      the parent directory. */
  lemma PlacedConcat(made: seq<Action>, rest: seq<Action>, nd: string, d: string)
    requires forall k :: 0 <= k < |made| ==> made[k] == Mkdir(nd)
    requires InsideListing(rest, nd)
    requires Under(nd, d)
    ensures AllUnder(made + rest, d)
    ensures forall k :: 0 <= k < |made + rest| ==>
              (made + rest)[k] == Mkdir(nd) || ((made + rest)[k].Fetch? && (made + rest)[k].into == nd)
              || Under(Place((made + rest)[k]), nd)
  {
    var log := made + rest;
    forall k | 0 <= k < |log|
      ensures Under(Place(log[k]), d)
    {
      if k >= |made| {
        assert log[k] == rest[k - |made|];
        if Under(Place(log[k]), nd) {
          UnderTrans(Place(log[k]), nd, d);
        }
      }
    }
  }

  /** The loop over links stays inside its listing's directory. */
  lemma {:induction false} FollowPlaced(r: Response, links: seq<string>, nd: string, fs: set<string>)
    ensures InsideListing(FollowLinks(r, links, nd, fs).log, nd)
    decreases r, 0, |links|
  {
    if links != [] {
      var url := ChildUrl(r.url, links[0]);
      match Lookup(r.served, url)
      case None =>
      case Some(i) =>
        var child := Dispatch(r.served[i].response, nd, fs);
        DispatchPlaced(r.served[i].response, nd, fs);
        if !child.crashed {
          FollowPlaced(r, links[1..], nd, child.fs);
        }
    }
  }

  /** The traversal's own bookkeeping of existing paths is what its log does
      to them; every directory it makes was absent when made; and a run that
      crashed ends with the request that raised. */
  lemma {:induction false} DispatchEffect(r: Response, d: string, fs: set<string>)
    ensures var out := Dispatch(r, d, fs);
            && out.fs == Effect(fs, out.log)
            && MkdirsFresh(fs, out.log)
            && (out.crashed ==> |out.log| > 0 && out.log[|out.log| - 1].Fetch?)
    decreases r, 2
  {
    if IsDirectoryUrl(r.url) {
      ParseEffect(r, d, fs);
    } else {
      var path := FilePath(r, d);
      var log := SaveFile(r, d);
      WriteLoopInert(fs + {path}, path, r.chunks);
      EffectAppend(fs, [Create(path)], WriteLoop(path, r.chunks));
    }
  }

  lemma {:induction false} ParseEffect(r: Response, d: string, fs: set<string>)
    ensures var out := ParseDirectory(r, d, fs);
            && out.fs == Effect(fs, out.log)
            && MkdirsFresh(fs, out.log)
            && (out.crashed ==> |out.log| > 0 && out.log[|out.log| - 1].Fetch?)
    decreases r, 1
  {
    var nd := NewDirectory(r, d);
    var made := if nd in fs then [] else [Mkdir(nd)];
    ParseSplit(r, d, fs);
    ParseRestEffect(r, nd, fs);
    ParseEffectOf(fs, nd, made, ParseRest(r, nd, fs), ParseDirectory(r, d, fs));
  }

  /** `ParseEffect` for what follows the `makedirs`. */
  lemma {:induction false} ParseRestEffect(r: Response, nd: string, fs: set<string>)
    ensures var rest := ParseRest(r, nd, fs);
            && rest.fs == Effect(fs + {nd}, rest.log)
            && MkdirsFresh(fs + {nd}, rest.log)
            && (rest.crashed ==> |rest.log| > 0 && rest.log[|rest.log| - 1].Fetch?)
    decreases r, 0
  {
    if IsHtml(r) {
      FollowEffect(r, ExtractLinks(r.text), nd, fs + {nd});
    }
  }

  /** What `parse_directory` does after its `makedirs`: the loop over links
      for an HTML listing, nothing otherwise. */
  function ParseRest(r: Response, nd: string, fs: set<string>): Run
    decreases r, 0
  {
    if IsHtml(r) then FollowLinks(r, ExtractLinks(r.text), nd, fs + {nd})
    else Run([], fs + {nd}, false)
  }

  lemma ParseSplit(r: Response, d: string, fs: set<string>)
    ensures var nd := NewDirectory(r, d);
            var rest := ParseRest(r, nd, fs);
            ParseDirectory(r, d, fs) == Run((if nd in fs then [] else [Mkdir(nd)]) + rest.log, rest.fs, rest.crashed)
  {
    var nd := NewDirectory(r, d);
    if !IsHtml(r) {
      assert (if nd in fs then [] else [Mkdir(nd)]) + [] == if nd in fs then [] else [Mkdir(nd)];
    }
  }

  /** The bookkeeping of `ParseEffect` for any loop result `rest` run after
      the optional `makedirs`. */
  lemma ParseEffectOf(fs: set<string>, nd: string, made: seq<Action>, rest: Run, out: Run)
    requires made == if nd in fs then [] else [Mkdir(nd)]
    requires rest.fs == Effect(fs + {nd}, rest.log) && MkdirsFresh(fs + {nd}, rest.log)
    requires rest.crashed ==> |rest.log| > 0 && rest.log[|rest.log| - 1].Fetch?
    requires out == Run(made + rest.log, rest.fs, rest.crashed)
    ensures out.fs == Effect(fs, out.log) && MkdirsFresh(fs, out.log)
    ensures out.crashed ==> |out.log| > 0 && out.log[|out.log| - 1].Fetch?
  {
    assert Effect(fs, made) == fs + {nd};
    assert MkdirsFresh(fs, made);
    EffectAppend(fs, made, rest.log);
    if rest.crashed {
      LastOfAppend(made, rest.log);
    }
  }

  lemma {:induction false} FollowEffect(r: Response, links: seq<string>, nd: string, fs: set<string>)
    ensures var out := FollowLinks(r, links, nd, fs);
            && out.fs == Effect(fs, out.log)
            && MkdirsFresh(fs, out.log)
            && (out.crashed ==> |out.log| > 0 && out.log[|out.log| - 1].Fetch?)
    decreases r, 0, |links|
  {
    if links != [] {
      var url := ChildUrl(r.url, links[0]);
      match Lookup(r.served, url)
      case None =>
      case Some(i) =>
        var child := Dispatch(r.served[i].response, nd, fs);
        DispatchEffect(r.served[i].response, nd, fs);
        EffectAppend(fs, [Fetch(url, nd)], child.log);
        if !child.crashed {
          var rest := FollowLinks(r, links[1..], nd, child.fs);
          FollowEffect(r, links[1..], nd, child.fs);
          EffectAppend(fs, [Fetch(url, nd)] + child.log, rest.log);
          if rest.crashed {
            assert ([Fetch(url, nd)] + child.log + rest.log)[|[Fetch(url, nd)] + child.log + rest.log| - 1]
                == rest.log[|rest.log| - 1];
          }
        }
    }
  }

  /** `s` is a prefix of `t`. */
  predicate PrefixOf(s: seq<string>, t: seq<string>) {
    |s| <= |t| && t[..|s|] == s
  }

  /** The loop requests each link's URL exactly once, in link order,
      duplicates included; a run cut short by a raising request made the
      requests of a non-empty prefix of the links. Requests made while
      handling the children go elsewhere. */
  lemma {:induction false} FollowFetches(r: Response, links: seq<string>, nd: string, fs: set<string>)
    ensures var out := FollowLinks(r, links, nd, fs);
            && (!out.crashed ==> FetchesInto(out.log, nd) == ChildUrls(r.url, links))
            && (out.crashed ==> 0 < |FetchesInto(out.log, nd)|
                                && PrefixOf(FetchesInto(out.log, nd), ChildUrls(r.url, links)))
    decreases |links|
  {
    if links != [] {
      var url := ChildUrl(r.url, links[0]);
      var urls := ChildUrls(r.url, links);
      assert urls == [url] + ChildUrls(r.url, links[1..]);
      match Lookup(r.served, url)
      case None =>
        assert FetchesInto([Fetch(url, nd)], nd) == [url];
      case Some(i) =>
        var child := Dispatch(r.served[i].response, nd, fs);
        DispatchPlaced(r.served[i].response, nd, fs);
        NoFetchesIntoAbove(child.log, nd);
        FetchesIntoAppend([Fetch(url, nd)], child.log, nd);
        assert FetchesInto([Fetch(url, nd)], nd) == [url];
        if !child.crashed {
          var rest := FollowLinks(r, links[1..], nd, child.fs);
          FollowFetches(r, links[1..], nd, child.fs);
          FetchesIntoAppend([Fetch(url, nd)] + child.log, rest.log, nd);
        }
    }
  }

  /** `parse_directory` makes its directory only when it is absent, and then
      before anything else; it never makes it twice. It follows links only for
      an HTML listing, requesting each extracted link once, in order, into the
      new directory; otherwise it requests nothing. */
  lemma ParseDirectoryContract(r: Response, d: string, fs: set<string>)
    ensures var nd := NewDirectory(r, d);
            var out := ParseDirectory(r, d, fs);
            var wanted := ChildUrls(r.url, ExtractLinks(r.text));
            && (nd !in fs ==> |out.log| > 0 && out.log[0] == Mkdir(nd)
                              && forall k :: 1 <= k < |out.log| ==> out.log[k] != Mkdir(nd))
            && (nd in fs ==> forall k :: 0 <= k < |out.log| ==> out.log[k] != Mkdir(nd))
            && (!IsHtml(r) ==> !out.crashed && forall k :: 0 <= k < |out.log| ==> !out.log[k].Fetch?)
            && (IsHtml(r) && !out.crashed ==> FetchesInto(out.log, nd) == wanted)
            && (IsHtml(r) && out.crashed ==> PrefixOf(FetchesInto(out.log, nd), wanted))
            && nd in out.fs
  {
    ParseMakesOnce(r, d, fs);
    ParseRequests(r, d, fs);
  }

  /** The `makedirs` half of `ParseDirectoryContract`. */
  lemma ParseMakesOnce(r: Response, d: string, fs: set<string>)
    ensures var nd := NewDirectory(r, d);
            var out := ParseDirectory(r, d, fs);
            && (nd !in fs ==> |out.log| > 0 && out.log[0] == Mkdir(nd)
                              && forall k :: 1 <= k < |out.log| ==> out.log[k] != Mkdir(nd))
            && (nd in fs ==> forall k :: 0 <= k < |out.log| ==> out.log[k] != Mkdir(nd))
            && nd in out.fs
  {
    var nd := NewDirectory(r, d);
    var made := if nd in fs then [] else [Mkdir(nd)];
    var rest := ParseRest(r, nd, fs);
    ParseSplit(r, d, fs);
    if IsHtml(r) {
      FollowPlaced(r, ExtractLinks(r.text), nd, fs + {nd});
      FollowEffect(r, ExtractLinks(r.text), nd, fs + {nd});
      EffectGrows(fs + {nd}, rest.log);
    }
    NoMkdirAfter(made, rest.log, nd);
  }

  /** The last action of two logs run one after the other. */
  lemma LastOfAppend(a: seq<Action>, b: seq<Action>)
    requires b != []
    ensures (a + b)[|a + b| - 1] == b[|b| - 1]
  {
  }

  /** Actions inside a listing never make the listing's own directory again. */
  lemma NoMkdirAfter(made: seq<Action>, rest: seq<Action>, nd: string)
    requires InsideListing(rest, nd)
    ensures forall k :: |made| <= k < |made + rest| ==> (made + rest)[k] != Mkdir(nd)
  {
    forall k | |made| <= k < |made + rest|
      ensures (made + rest)[k] != Mkdir(nd)
    {
      assert (made + rest)[k] == rest[k - |made|];
      assert !Under(nd, nd);
    }
  }

  /** The request half of `ParseDirectoryContract`. */
  lemma ParseRequests(r: Response, d: string, fs: set<string>)
    ensures var nd := NewDirectory(r, d);
            var out := ParseDirectory(r, d, fs);
            var wanted := ChildUrls(r.url, ExtractLinks(r.text));
            && (!IsHtml(r) ==> !out.crashed && forall k :: 0 <= k < |out.log| ==> !out.log[k].Fetch?)
            && (IsHtml(r) && !out.crashed ==> FetchesInto(out.log, nd) == wanted)
            && (IsHtml(r) && out.crashed ==> PrefixOf(FetchesInto(out.log, nd), wanted))
  {
    var nd := NewDirectory(r, d);
    var made := if nd in fs then [] else [Mkdir(nd)];
    var rest := ParseRest(r, nd, fs);
    ParseSplit(r, d, fs);
    if IsHtml(r) {
      FollowFetches(r, ExtractLinks(r.text), nd, fs + {nd});
      FetchesIntoAppend(made, rest.log, nd);
      assert FetchesInto(made, nd) == [];
    }
  }

  /** A response whose final URL ends in a slash is handled as a listing:
      everything happens in, or strictly inside, its new directory. Any other
      response is saved as one file in `d`, named after its URL: created
      first, then only written to. */
  lemma DispatchRoutes(r: Response, d: string, fs: set<string>)
    ensures var out := Dispatch(r, d, fs);
            var nd := NewDirectory(r, d);
            var file := Join(d, FileName(r.url));
            && (IsDirectoryUrl(r.url) ==>
                  forall k :: 0 <= k < |out.log| ==>
                    out.log[k] == Mkdir(nd) || (out.log[k].Fetch? && out.log[k].into == nd)
                    || Under(Place(out.log[k]), nd))
            && (!IsDirectoryUrl(r.url) ==>
                  && !out.crashed
                  && |out.log| > 0 && out.log[0] == Create(file)
                  && forall k :: 1 <= k < |out.log| ==> out.log[k].Write? && out.log[k].path == file)
  {
    if IsDirectoryUrl(r.url) {
      ParsePlaced(r, d, fs);
    } else {
      SaveFileShape(r, d);
    }
  }

  /** The entry point requests the root URL first, into the destination,
      then routes the response by its final URL like any child. */
  lemma CrawlRoutes(url: string, root: Option<Response>, dest: string, fs: set<string>)
    ensures var out := Crawl(url, root, dest, fs);
            && |out.log| > 0 && out.log[0] == Fetch(url, dest)
            && (root.None? ==> out.crashed && |out.log| == 1)
            && (root.Some? && IsDirectoryUrl(root.value.url) ==>
                  var nd := NewDirectory(root.value, dest);
                  forall k :: 1 <= k < |out.log| ==>
                    out.log[k] == Mkdir(nd) || (out.log[k].Fetch? && out.log[k].into == nd)
                    || Under(Place(out.log[k]), nd))
            && (root.Some? && !IsDirectoryUrl(root.value.url) ==>
                  var file := Join(dest, FileName(root.value.url));
                  && !out.crashed
                  && |out.log| > 1 && out.log[1] == Create(file)
                  && forall k :: 2 <= k < |out.log| ==> out.log[k].Write? && out.log[k].path == file)
  {
    if root.Some? {
      var r := root.value;
      var out := Crawl(url, root, dest, fs);
      var sub := Dispatch(r, dest, fs);
      assert out.log == [Fetch(url, dest)] + sub.log && out.crashed == sub.crashed;
      DispatchRoutes(r, dest, fs);
      if IsDirectoryUrl(r.url) {
        ShiftInside(Fetch(url, dest), sub.log, NewDirectory(r, dest));
      } else {
        ShiftWrites(Fetch(url, dest), sub.log, Join(dest, FileName(r.url)));
      }
    }
  }

  /** One action in front keeps the listing's actions where they were, one
      place later. */
  lemma ShiftInside(a: Action, log: seq<Action>, nd: string)
    requires forall k :: 0 <= k < |log| ==>
               log[k] == Mkdir(nd) || (log[k].Fetch? && log[k].into == nd) || Under(Place(log[k]), nd)
    ensures forall k :: 1 <= k < |[a] + log| ==>
              ([a] + log)[k] == Mkdir(nd) || (([a] + log)[k].Fetch? && ([a] + log)[k].into == nd)
              || Under(Place(([a] + log)[k]), nd)
  {
    forall k | 1 <= k < |[a] + log|
      ensures ([a] + log)[k] == log[k - 1]
    {
    }
  }

  /** One action in front of a save keeps its create and writes, one place
      later. */
  lemma ShiftWrites(a: Action, log: seq<Action>, file: string)
    requires |log| > 0 && log[0] == Create(file)
    requires forall k :: 1 <= k < |log| ==> log[k].Write? && log[k].path == file
    ensures |[a] + log| > 1 && ([a] + log)[1] == Create(file)
    ensures forall k :: 2 <= k < |[a] + log| ==> ([a] + log)[k].Write? && ([a] + log)[k].path == file
  {
    forall k | 1 <= k < |[a] + log|
      ensures ([a] + log)[k] == log[k - 1]
    {
    }
  }


}

=== FILE: walk.dfy ===
/** The two loops of the downloader written as loops: the walk over a
    listing's links in `parse_directory` and the chunk loop of `save_file`,
    each shown equal to the recursive definition the rest of the model uses. */
module Walk {
  import opened Strings
  import opened Paths
  import opened Log
  import opened Remote
  import opened Save
  import opened Traversal

  /** `for link in links:` request `parent/link`, then parse or save what
      came back into `nd`; a request that raises stops everything. */
  method WalkLinks(r: Response, links: seq<string>, nd: string, fs: set<string>) returns (out: Run)
    ensures out == FollowLinks(r, links, nd, fs)
    ensures !out.crashed ==> FetchesInto(out.log, nd) == ChildUrls(r.url, links)
    ensures out.crashed ==> PrefixOf(FetchesInto(out.log, nd), ChildUrls(r.url, links))
  {
    out := WalkLog(r, links, nd, fs);
    WalkFetches(r, links, nd, fs, out);
  }

  /** The loop itself: the actions, the paths and the abort it leaves are
      those of the recursive link traversal. */
  method WalkLog(r: Response, links: seq<string>, nd: string, fs: set<string>) returns (out: Run)
    ensures out == FollowLinks(r, links, nd, fs)
  {
    var log: seq<Action> := [];
    var cur := fs;
    var i := 0;
    while i < |links|
      invariant 0 <= i <= |links|
      invariant var rest := FollowLinks(r, links[i..], nd, cur);
                FollowLinks(r, links, nd, fs) == Run(log + rest.log, rest.fs, rest.crashed)
      decreases |links| - i
    {
      var step := TakeLink(r, links[i], nd, cur);
      FollowSplit(r, links, i, nd, cur);
      if step.crashed {
        return Run(log + step.log, step.fs, true);
      }
      Regroup(log, step.log, FollowLinks(r, links[i + 1..], nd, step.fs).log);
      log := log + step.log;
      cur := step.fs;
      i := i + 1;
    }
    assert links[i..] == [];
    assert log + [] == log;
    return Run(log, cur, false);
  }

  /** The requests of a finished walk, as `FollowFetches` gives them. */
  lemma WalkFetches(r: Response, links: seq<string>, nd: string, fs: set<string>, out: Run)
    requires out == FollowLinks(r, links, nd, fs)
    ensures !out.crashed ==> FetchesInto(out.log, nd) == ChildUrls(r.url, links)
    ensures out.crashed ==> PrefixOf(FetchesInto(out.log, nd), ChildUrls(r.url, links))
  {
    FollowFetches(r, links, nd, fs);
  }

  /** One pass of the loop body: request `parent/link`, then parse or save
      the response into `nd`; `crashed` when the request or the handling
      raised. */
  function TakeLink(r: Response, link: string, nd: string, cur: set<string>): Run {
    var url := ChildUrl(r.url, link);
    match Lookup(r.served, url)
    case None => Run([Fetch(url, nd)], cur, true)
    case Some(k) =>
      var child := Dispatch(r.served[k].response, nd, cur);
      Run([Fetch(url, nd)] + child.log, child.fs, child.crashed)
  }

  /** The walk from link `i` is that link's pass, then, unless it raised,
      the walk from link `i + 1`. */
  lemma FollowSplit(r: Response, links: seq<string>, i: nat, nd: string, cur: set<string>)
    requires i < |links|
    ensures var step := TakeLink(r, links[i], nd, cur);
            var rest := FollowLinks(r, links[i + 1..], nd, step.fs);
            FollowLinks(r, links[i..], nd, cur)
              == if step.crashed then step else Run(step.log + rest.log, rest.fs, rest.crashed)
  {
    assert links[i..][0] == links[i] && links[i..][1..] == links[i + 1..];
  }

  /** Moving the finished part of an iteration into the accumulated log. */
  lemma Regroup(log: seq<Action>, step: seq<Action>, rest: seq<Action>)
    ensures log + (step + rest) == (log + step) + rest
  {
  }

  /** `for chunk in response.iter_content(...): if chunk: file.write(chunk)`. */
  method WriteChunks(path: string, chunks: seq<Bytes>) returns (log: seq<Action>)
    ensures log == WriteLoop(path, chunks)
    ensures forall k :: 0 <= k < |log| ==> log[k].Write? && log[k].path == path && log[k].data != []
    ensures Concat(NonEmpty(chunks)) == Concat(chunks)
  {
    log := [];
    var i := 0;
    while i < |chunks|
      invariant 0 <= i <= |chunks|
      invariant WriteLoop(path, chunks) == log + WriteLoop(path, chunks[i..])
      decreases |chunks| - i
    {
      assert chunks[i..][0] == chunks[i] && chunks[i..][1..] == chunks[i + 1..];
      if chunks[i] != [] {
        assert log + WriteLoop(path, chunks[i..])
               == (log + [Write(path, chunks[i])]) + WriteLoop(path, chunks[i + 1..]);
        log := log + [Write(path, chunks[i])];
      }
      i := i + 1;
    }
    assert chunks[i..] == [];
    assert log + [] == log;
    NonEmptyKeepsBytes(chunks);
  }
}
